=== FILE: README.md ===
# OrderDirect ordering core in Dafny

OrderDirect is a multi-tenant food-ordering web application. Each restaurant
signs up under a subdomain and gets a storefront. Customers browse the menu,
fill a cart and place orders, and the owner manages the menu and the orders
from a dashboard. This project models the client-side logic of that ordering
domain as pure Dafny functions over immutable data, and proves what the code
promises about it.

Modules follow the source files:

- `Common` (`common.dfy`) holds shared definitions:
  - nullable values (`Option`) and thrown errors (`Result`), plus JavaScript truthiness;
  - `trim`, ASCII `toLowerCase` and `includes`;
  - `toFixed(2)` rounding of exact money amounts;
  - an insertion sort standing for `Array.prototype.sort` with a numeric comparator, specified by its order and its permutation only;
  - the listing a document-store query returns.
- `Menu`, `Categories` and `Orders` model the three document services. Each store is a `map` from document id to document data.
- `CartContext` models the customer cart reducer and the prices it derives.
- `CartSlice` models the Redux cart. It stores its amounts and rounds them.
- `Signup` covers the restaurant sign-up form. `RestaurantService` covers the tenant registry and subdomain lookup. `AdminDashboard` covers the owner login guard.
- `CustomerAuthService` models the saved-address and payment-method list edits.
- `Checkout`, `CustomerAuthPage` and `CustomerMenu` model the decision logic of the three customer pages.

**How external effects are represented**

- Everything the code asks of Firebase arrives as a parameter. This covers:
  - a store-assigned document id;
  - the uid of a new account;
  - a timestamp, or the clock reading that names a saved address;
  - the outcome of a sign-in or of storing an order.
- Store queries are methods. They pick the documents in an order the model leaves open. Their contracts say which documents come back, and that each comes back exactly once.
- Money is an exact `real`.
- `parseFloat(x.toFixed(2))` is `Common.Round2`: round half away from zero to hundredths.

**Two behaviours worth stating plainly**

- The Redux cart's stored total is the rounding of the unrounded sum of subtotal, fee and tax. It is not the rounded sum of the stored, already rounded amounts. The two agree when the unrounded subtotal is a whole number of hundredths (`CartSlice.TotalOfStoredAmounts`). They can differ otherwise (`CartSlice.StoredAmountsNeedNotAddUp`).
- A two-letter subdomain is refused only by the sign-up form's own hint. The registry's `checkSubdomainAvailability` checks neither length nor characters (`RestaurantService.FormAndServiceChecks`).

**Behaviour of the code that the proofs bring out**

- `updateSavedAddress` keeps "at most one default" only when ids are distinct. Ids are built from `Date.now()`, so two additions within one millisecond share an id. An update that marks such an entry default then leaves two defaults (`CustomerAuthService.SharedIdBreaksDefault`).
- Deleting the default entry leaves a list without a default (`CustomerAuthService.DeletingTheDefaultLeavesNone`). So does an update that unsets the flag.
- An update that marks an unknown id as default clears every default (`CustomerAuthService.UpdateUnknownIdClearsDefaults`).
- `updateOrderStatus` refuses no transition, so a closed order can be reopened (`Orders.ClosedOrderCanReopen`).
- `getCategoryColor` gives `undefined` for a name missing from the list, because `-1 % 8` is `-1` in JavaScript (`CustomerMenu.GetCategoryColor`).

## Model

| member | source | states |
|---|---|---|
| Common.Round2 | src/store/slices/cartSlice.ts:35-38 | `parseFloat(x.toFixed(2))` is a whole number of hundredths, within half a hundredth of the amount, and non-negative for a non-negative amount; an exact tie goes away from zero (strictly above the amount's lower half-hundredth for a non-negative amount, strictly below its upper one for a negative amount) |
| Common.HalfCentRoundsAway | src/store/slices/cartSlice.ts:35-38 | 0.005 rounds to 0.01 and -0.005 to -0.01 |
| Common.Round2OfCents | src/store/slices/cartSlice.ts:35-38 | an amount already in whole hundredths is stored unchanged |
| Common.Round2ShiftCents | src/store/slices/cartSlice.ts:33-38 | adding a non-negative whole number of hundredths before rounding is the same as adding it after |
| Common.TrimEmptyIffBlank | src/pages/Signup.tsx:48-62 | `!s.trim()` holds exactly when the string is made only of white space |
| Common.NatToString | src/services/customerAuthService.ts:227 | the decimal rendering of a clock reading is non-empty and made of digits only |
| Common.NatToStringParses | src/services/customerAuthService.ts:227 | reading the rendering back as a decimal number gives the clock reading |
| Common.NatToStringInjective | src/services/customerAuthService.ts:227 | different clock readings render differently |
| Common.SortBy | src/services/categoryService.ts:64-65 | the comparator sort returns a permutation of its input (same elements, same multiplicities) in ascending key order |
| Common.Query | src/services/menuService.ts:70-79 | a query snapshot lists every stored document that matches, with its id and data, exactly once, and nothing else |
| Menu.AddMenuItem | src/services/menuService.ts:30-58 | only the new id is added to the store; the fields are stored as given with both timestamps set to now; the image URL is stored exactly when it is a non-empty string; the returned item carries the unfiltered argument |
| Menu.GetMenuItemsByRestaurant | src/services/menuService.ts:68-84 | exactly the stored items of that restaurant, each id once |
| Menu.GetAvailableMenuItems | src/services/menuService.ts:89-109 | exactly the stored items of that restaurant that are available, each id once |
| Menu.UpdateMenuItem | src/services/menuService.ts:114-133 | a missing item is the error 'Failed to update menu item'; otherwise every key the update defines is written, every other field and every other item keeps its value, createdAt is kept and updatedAt becomes now |
| Menu.Merge | src/services/menuService.ts:114-128 | defined keys over the stored item with updatedAt now; UpdateMenuItem states it field by field and UpdateMenuItemIdempotent shows it idempotent |
| Menu.UpdateMenuItemIdempotent | src/services/menuService.ts:114-128 | applying the same update twice at the same instant is the same as applying it once |
| Menu.DeleteMenuItem | src/services/menuService.ts:138-146 | the item is gone and every other item is unchanged |
| Menu.ToggleMenuItemAvailability | src/services/menuService.ts:151-157 | only `available` (to the argument) and updatedAt change; a missing item is the error 'Failed to toggle availability' |
| CartContext.FindIndex | src/contexts/CartContext.tsx:48-50 | the index of the first line for the menu item, or -1 when no line holds it |
| CartContext.Reduce | src/contexts/CartContext.tsx:33-132 | the cart reducer; its contract is carried by the lemmas below (RemoveItemSpec, NonPositiveQuantityRemoves, PositiveQuantitySets, UpdateInstructionsSpec, ClearAndLoadReplaceState, AddFromOtherRestaurant, AddExistingIncrements, AddNewAppends, ReducePreservesWf) |
| CartContext.Wf | src/contexts/CartContext.tsx:33-132 | the invariant the reducer keeps: bound to a restaurant iff non-empty, id and name bound together, a non-empty restaurant id, every line's menu item from the bound restaurant, distinct menu items, positive quantities; preserved by ReducePreservesWf and ReachableCartsWf |
| CartContext.WithoutMembers | src/contexts/CartContext.tsx:75-77 | the filter keeps exactly the lines for other menu items |
| CartContext.WithoutConcat | src/contexts/CartContext.tsx:75-77 | filtering preserves the relative order of the kept lines |
| CartContext.WithoutAbsent | src/contexts/CartContext.tsx:75-77 | filtering out an id no line carries leaves the list as it is |
| CartContext.AddFromOtherRestaurant | src/contexts/CartContext.tsx:39-45 | ADD_ITEM while bound to another non-empty restaurant id gives a cart bound to the new id and name holding exactly that item once |
| CartContext.AddExistingIncrements | src/contexts/CartContext.tsx:47-64 | ADD_ITEM of a menu item already in the cart raises that line's quantity by one; length, other lines and binding are unchanged |
| CartContext.AddNewAppends | src/contexts/CartContext.tsx:66-71 | ADD_ITEM of a new menu item appends one line of quantity 1 after the untouched old lines and binds the cart to the payload restaurant |
| CartContext.RemoveItemSpec | src/contexts/CartContext.tsx:74-86 | REMOVE_ITEM keeps exactly the other lines, unbinds id and name when no line remains, and keeps the binding otherwise |
| CartContext.RemoveAbsentKeepsItems | src/contexts/CartContext.tsx:74-86 | removing a menu item the cart does not hold leaves the lines unchanged |
| CartContext.NonPositiveQuantityRemoves | src/contexts/CartContext.tsx:88-94 | UPDATE_QUANTITY with a quantity of zero or less is the same action as REMOVE_ITEM |
| CartContext.PositiveQuantitySets | src/contexts/CartContext.tsx:96-103 | a positive UPDATE_QUANTITY sets the quantity of the matching lines only, keeping length, order and binding |
| CartContext.UpdateInstructionsSpec | src/contexts/CartContext.tsx:106-119 | UPDATE_INSTRUCTIONS changes only the instructions of the matching lines |
| CartContext.ClearAndLoadReplaceState | src/contexts/CartContext.tsx:121-127 | CLEAR_CART gives the empty unbound cart whatever the state; LOAD_CART installs its payload verbatim |
| CartContext.InitialStateWf | src/contexts/CartContext.tsx:27-31 | the initial cart satisfies the cart invariant |
| CartContext.ReducePreservesWf | src/contexts/CartContext.tsx:33-132 | every action except LOAD_CART preserves the invariant when the added item belongs to the non-empty restaurant id it is added with. The invariant: unbound iff empty; quantities at least 1; menu-item ids distinct; every line from the bound restaurant |
| CartContext.ReachableCartsWf | src/contexts/CartContext.tsx:27-132 | every cart reachable from a valid cart by such actions satisfies the invariant |
| CartContext.SumsAfterUpdate | src/contexts/CartContext.tsx:191-200 | replacing one line changes the item count and the subtotal by exactly that line's change |
| CartContext.CountWithout | src/contexts/CartContext.tsx:191-193 | dropping a menu item's line lowers the item count by that line's quantity |
| CartContext.AddItemPrices | src/contexts/CartContext.tsx:191-210 | after ADD_ITEM the count grows by one, the subtotal grows by one unit price (the snapshot price of an existing line), or both restart from one unit on a restaurant switch; the fee is 5 |
| CartContext.RemoveItemCount | src/contexts/CartContext.tsx:191-193 | after REMOVE_ITEM on a valid cart the item count drops by the removed quantity |
| CartContext.PricesOfCart | src/contexts/CartContext.tsx:202-214 | total = subtotal × 1.05 plus 5 for a non-empty cart; an empty cart costs 0 and counts 0 items |
| CartContext.GetItemCount | src/contexts/CartContext.tsx:191-193 | the sum of the quantities; CountAtLeastLines, CountWithout and SumsAfterUpdate state it |
| CartContext.GetSubtotal | src/contexts/CartContext.tsx:195-200 | the sum of price × quantity; SubtotalNonNegative, SumsAfterUpdate and Checkout.OrderLinesSubtotal state it |
| CartContext.GetTaxes | src/contexts/CartContext.tsx:202-205 | 5 % of the subtotal; PricesOfCart states it |
| CartContext.GetDeliveryFee | src/contexts/CartContext.tsx:207-210 | 5 for a non-empty cart, else 0; PricesOfCart states it |
| CartContext.GetTotal | src/contexts/CartContext.tsx:212-214 | subtotal + taxes + fee; PricesOfCart and Checkout.PlacedTotalMatchesItems state it |
| CartContext.CountAtLeastLines | src/contexts/CartContext.tsx:191-193 | with positive quantities the item count is at least the number of lines |
| CartContext.SubtotalNonNegative | src/contexts/CartContext.tsx:195-200 | with non-negative prices and quantities the subtotal is non-negative |
| CartSlice.CalculateTotals | src/store/slices/cartSlice.ts:19-39 | subtotal, taxes and total are whole hundredths; the subtotal is within half a hundredth of the raw sum of (price + add-ons) × quantity; the fee is 40 exactly when the raw subtotal is positive; the taxes are within half a hundredth of 5 % of the raw subtotal; the total is within half a hundredth of raw subtotal + fee + 5 % of the raw subtotal; for a non-negative raw subtotal the three lower bounds are strict, so half-hundredth ties round up; an empty cart has all four amounts 0 |
| CartSlice.RoundedTotalCoversFee | src/store/slices/cartSlice.ts:31-38 | for a non-negative subtotal the rounded total is at least the delivery fee |
| CartSlice.AddItem | src/store/slices/cartSlice.ts:45-57 | the stored amounts are those of the new lines, and the restaurant binding is untouched |
| CartSlice.RemoveItem | src/store/slices/cartSlice.ts:58-63 | keeps exactly the lines of other menu items, recomputes the amounts, never touches the binding |
| CartSlice.UpdateQuantity | src/store/slices/cartSlice.ts:64-84 | recomputes the amounts for the new lines and leaves the binding unchanged; a quantity of zero or less keeps exactly the lines of other menu items |
| CartSlice.NonPositiveQuantityRemoves | src/store/slices/cartSlice.ts:64-72 | a quantity of zero or less is the same as removing the item |
| CartSlice.SetRestaurant | src/store/slices/cartSlice.ts:85-91 | changes only restaurantId and restaurantName |
| CartSlice.ClearCart | src/store/slices/cartSlice.ts:92-100 | every field returns to its initial value, and those amounts are consistent with the empty list |
| CartSlice.AddItemLines | src/store/slices/cartSlice.ts:45-57 | an existing menu item gains the payload quantity on its first line, keeping its add-ons, the length and the other lines; a new one is appended as given |
| CartSlice.AbsentIdKeepsLines | src/store/slices/cartSlice.ts:58-84 | removing, or updating the quantity of, a menu item not in the cart leaves the lines unchanged |
| CartSlice.UpdateQuantityFirstOnly | src/store/slices/cartSlice.ts:74-81 | a positive quantity is set on the first matching line only; every other line, later duplicates included, is unchanged |
| CartSlice.ReducersKeepTotals | src/store/slices/cartSlice.ts:45-100 | after any reducer the stored amounts equal the totals calculated from the lines |
| CartSlice.TotalOfStoredAmounts | src/store/slices/cartSlice.ts:31-38 | with a raw subtotal in whole hundredths the stored total is the rounded sum of the stored subtotal, fee and tax |
| CartSlice.StoredAmountsNeedNotAddUp | src/store/slices/cartSlice.ts:31-38 | a raw subtotal of 0.0049 is stored as subtotal 0, fee 40, tax 0 and total 40.01, which is not their rounded sum |
| CartSlice.PinnedAmounts | src/store/slices/__tests__/cartSlice.test.ts:42-103 | the amounts the tests pin: 2 × 299 gives 598, 40, 29.9 and 667.9; adding one more makes 3; quantity 5 gives 1495; removal, quantity 0 and clearing empty the cart |
| Signup.KeepSlugChars | src/pages/Signup.tsx:31 | the result holds only `[a-z0-9]` and leaves such a string as it is |
| Signup.KeepSlugCharsAppend | src/pages/Signup.tsx:31 | the filter of a concatenation is the concatenation of the filters, so kept characters keep their order |
| Signup.KeepSlugCharsOne | src/pages/Signup.tsx:31 | one character is kept exactly when it is in `[a-z0-9]` |
| Signup.KeepSlugCharsMembers | src/pages/Signup.tsx:31 | the kept characters are exactly the input's `[a-z0-9]` characters |
| Signup.AutoSlug | src/pages/Signup.tsx:29-32 | the derived subdomain holds only `[a-z0-9]`, is a prefix of the filtered lower-cased name, and has length min(that length, 20) |
| Signup.AutoSlugMembers | src/pages/Signup.tsx:29-32 | the derived subdomain's characters are `[a-z0-9]` characters of the lower-cased name, and all of them when there are at most 20 |
| Signup.AutoSlugExample | src/pages/Signup.tsx:29-32 | "Al's" derives "als" |
| Signup.AutoSlugIdempotent | src/pages/Signup.tsx:27-34 | deriving a subdomain from a derived subdomain gives it back |
| Signup.HandleChange | src/pages/Signup.tsx:18-35 | the field takes the value and every field other than the subdomain keeps its value; the field's error key is present exactly when it was, with the message blanked, and other errors stay; the subdomain is derived from a new restaurant name exactly while it was empty, and otherwise only its own field changes it |
| Signup.CheckSubdomainAvailability | src/pages/Signup.tsx:37-43 | the form's hint is true iff the subdomain is not one of the five reserved words (compared case-sensitively) and has at least 3 characters |
| Signup.RequiredError | src/pages/Signup.tsx:48-61 | a required field reports its message exactly when it is blank after trimming |
| Signup.EmailError | src/pages/Signup.tsx:54-58 | a blank email is 'required'; otherwise it is 'invalid' exactly when no part of it has the shape non-space, `@`, non-space, `.`, non-space |
| Signup.EmailLooksValid | src/pages/Signup.tsx:56 | the unanchored `\S+@\S+\.\S+` test; EmailPatternExamples pins accepted and refused cases |
| Signup.SubdomainError | src/pages/Signup.tsx:62-68 | the first failing check reports (blank, shorter than 3, characters outside `[a-z0-9]`), and no error iff the subdomain is valid |
| Signup.PasswordError | src/pages/Signup.tsx:69-73 | empty is 'required', shorter than 8 is 'at least 8 characters', no error iff at least 8 characters |
| Signup.ValidateForm | src/pages/Signup.tsx:45-80 | a field is in the error map exactly when its own check fails; the password mismatch is independent of the other checks; the map is empty iff the whole form is acceptable |
| Signup.FieldError | src/pages/Signup.tsx:45-76 | one field's check; ValidateForm states that a field is in the error map exactly when this check fails |
| Signup.HandleSubmit | src/pages/Signup.tsx:82-87 | submit proceeds exactly when the form is acceptable, and otherwise shows at least one error |
| Signup.AutoSlugPassesValidation | src/pages/Signup.tsx:62-68 | a subdomain derived from a name with at least three letters or digits passes the subdomain check |
| Signup.EmailPatternExamples | src/pages/Signup.tsx:56 | the unanchored email pattern accepts `a@b.c` and refuses `a@b` and `a @b.c` |
| RestaurantService.CheckSubdomainAvailability | src/services/restaurantService.ts:17-35 | compared in lower case, a subdomain is available iff it is neither one of the seven reserved words nor stored for any restaurant; length and characters play no part |
| RestaurantService.SignupErrorMessage | src/services/restaurantService.ts:89-98 | the rethrown message is never empty; codes other than the three mapped ones keep their own non-empty message |
| RestaurantService.SignupRestaurant | src/services/restaurantService.ts:40-100 | an unavailable subdomain fails with 'Subdomain is not available' before any account is made. A provider failure gives its mapped message. Otherwise the restaurant and the owner profile are added under the new uid: lower-cased subdomain, no Stripe account, status trial, plan standard, profile role owner pointing at the uid. The reply echoes uid and subdomain |
| RestaurantService.NewRestaurant | src/services/restaurantService.ts:56-69 | the restaurant record written at sign-up; SignupRestaurant states its fields |
| RestaurantService.UnavailableIgnoresAuth | src/services/restaurantService.ts:42-46 | with an unavailable subdomain the provider's answer makes no difference |
| RestaurantService.SignupPreservesRegistry | src/services/restaurantService.ts:56-79 | signing up keeps subdomains unique and every owner profile linked to the restaurant under its own uid |
| RestaurantService.GetRestaurantBySubdomain | src/services/restaurantService.ts:105-124 | `None` iff no restaurant has the lower-cased subdomain; otherwise a matching restaurant with its id and data, the only one when subdomains are unique |
| RestaurantService.SignupThenResolve | src/services/restaurantService.ts:105-120 | a restaurant signed up under a subdomain is the one found under every spelling differing only in ASCII case |
| RestaurantService.FormAndServiceChecks | src/services/restaurantService.ts:19-23 | the service refuses every word the form refuses, and also `mail` and `support`; it accepts the two-letter `ab` that the form refuses |
| AdminDashboard.HandleLogin | src/pages/store/AdminDashboard.tsx:14-35 | loading ends. Authenticated iff already authenticated or the profile belongs to this restaurant. The error is blank iff it does. A foreign profile gets 'You do not have access to this restaurant'. A failed sign-in shows its message, or 'Failed to login' when that is empty |
| AdminDashboard.Logout | src/pages/store/AdminDashboard.tsx:114-119 | logging out returns to unauthenticated, nothing else changes |
| AdminDashboard.Step | src/pages/store/AdminDashboard.tsx:14-119 | one page event: a login submit or the logout click; DashboardOnlyForOwner states its effect over any event sequence |
| AdminDashboard.Run | src/pages/store/AdminDashboard.tsx:9-119 | the page state after a sequence of events from a fresh page; DashboardOnlyForOwner states when it shows the dashboard |
| AdminDashboard.Render | src/pages/store/AdminDashboard.tsx:37-143 | the menu manager (for the route's restaurant) is shown exactly when authenticated, the login form with the error otherwise |
| AdminDashboard.DashboardOnlyForOwner | src/pages/store/AdminDashboard.tsx:9-35 | from a fresh page, the menu manager shows iff a sign-in whose profile belongs to this restaurant happened and no Logout followed it |
| CustomerAuthService.AddEntry | src/services/customerAuthService.ts:217-233 | the new entry goes last with the given id; it is default iff requested or the list was empty; a new default clears every other flag; otherwise the old entries are untouched |
| CustomerAuthService.AddEntryKeepsDefault | src/services/customerAuthService.ts:217-233 | adding keeps "at most one default" and "exactly one default when non-empty" |
| CustomerAuthService.DeleteEntryMembers | src/services/customerAuthService.ts:298-300 | the filter keeps exactly the entries with other ids |
| CustomerAuthService.DeleteEntry | src/services/customerAuthService.ts:298-300 | the `filter` on ids; never longer than the input, and DeleteEntryMembers, DeleteEntryConcat and DeleteAbsentEntry state its contents and order |
| CustomerAuthService.DeleteEntryConcat | src/services/customerAuthService.ts:298-300 | the kept entries keep their order |
| CustomerAuthService.DeleteAbsentEntry | src/services/customerAuthService.ts:298-300 | deleting an id no entry has changes nothing |
| CustomerAuthService.DeleteEntryKeepsDefault | src/services/customerAuthService.ts:298-300 | deleting keeps "at most one default" |
| CustomerAuthService.DeletingTheDefaultLeavesNone | src/services/customerAuthService.ts:296-305 | deleting the default of a two-entry list leaves no default |
| CustomerAuthService.UpdateAddresses | src/services/customerAuthService.ts:260-269 | length, order and ids are kept; the entries with the id take every key the update carries (flag, label, street, apartment, city, state, zip code, landmark) and keep the rest; when the update marks default, every other entry loses the flag, and otherwise other entries are untouched |
| CustomerAuthService.MergeAddress | src/services/customerAuthService.ts:260-263 | `{ ...addr, ...updates }`; UpdateAddresses states its effect key by key |
| CustomerAuthService.UpdateOne | src/services/customerAuthService.ts:260-268 | one entry under the map; UpdateAddresses states it for the matching and the other entries |
| CustomerAuthService.UpdateAddressesKeepsDefault | src/services/customerAuthService.ts:260-269 | with distinct ids, updating keeps "at most one default" |
| CustomerAuthService.SharedIdBreaksDefault | src/services/customerAuthService.ts:260-269 | two entries sharing an id both end up default after an update that marks that id default |
| CustomerAuthService.UpdateUnknownIdClearsDefaults | src/services/customerAuthService.ts:260-269 | marking an unknown id default leaves no default at all |
| CustomerAuthService.OrEmpty | src/services/customerAuthService.ts:214-215 | a missing list reads as empty |
| CustomerAuthService.ClockIdsDiffer | src/services/customerAuthService.ts:227 | ids minted from different clock readings differ |
| CustomerAuthService.AddSavedAddress | src/services/customerAuthService.ts:202-239 | a missing customer is 'Failed to add address' with nothing written. Otherwise only that customer's address list and updatedAt change, and the list becomes exactly `AddEntry` of the old list: one entry `addr_<now>` is appended with the default rule, the earlier entries are kept as they were or, for a new default, only lose their flag, and "exactly one default" is kept |
| CustomerAuthService.UpdateSavedAddress | src/services/customerAuthService.ts:244-279 | 'Failed to update address' exactly for a missing customer, or for an update carrying an `undefined` apartment or landmark into a matching entry; otherwise the address list becomes the merged list and only it and updatedAt change, keeping "at most one default" when ids are distinct |
| CustomerAuthService.DeleteSavedAddress | src/services/customerAuthService.ts:284-310 | a missing customer is 'Failed to delete address'; otherwise the list becomes `DeleteEntry` of the old one, so exactly the other addresses remain in their order, and "at most one default" is kept |
| CustomerAuthService.AddSavedPaymentMethod | src/services/customerAuthService.ts:315-352 | as for addresses, with `pm_<now>` ids, the payment list and 'Failed to add payment method': the new list is exactly `AddEntry` of the old one |
| CustomerAuthService.DeleteSavedPaymentMethod | src/services/customerAuthService.ts:357-383 | a missing customer is 'Failed to delete payment method'; otherwise the list becomes `DeleteEntry` of the old one, so exactly the other methods remain in their order, and "at most one default" is kept |
| Categories.AddCategory | src/services/categoryService.ts:27-46 | only the new id is added; the fields are stored as given with both timestamps now |
| Categories.GetCategoriesByRestaurant | src/services/categoryService.ts:51-70 | each stored category of the restaurant exactly once and nothing else, in ascending display order |
| Categories.UpdateCategory | src/services/categoryService.ts:75-86 | a missing category, or a description carried as `undefined`, is 'Failed to update category'; otherwise every carried key is written, uncarried fields and other categories keep their values, and updatedAt becomes now |
| Categories.EmptyCategoryPatchTouchesOnlyTimestamp | src/services/categoryService.ts:75-81 | an update carrying no key only refreshes updatedAt |
| Categories.DeleteCategory | src/services/categoryService.ts:91-99 | the category is gone and every other one is unchanged |
| Orders.CreateOrder | src/services/ordersService.ts:37-56 | only the new id is added; every field, status and total included, is stored verbatim with both timestamps now |
| Orders.GetOrdersByRestaurant | src/services/ordersService.ts:61-85 | each stored order of the restaurant exactly once and nothing else, newest first |
| Orders.SubscribeToOrders | src/services/ordersService.ts:91-137 | every snapshot delivers that snapshot's listing of the restaurant's orders, newest first |
| Orders.ListingsAgree | src/services/ordersService.ts:79-80 | two listings of the same snapshot hold the same orders with the same multiplicities, and at every position their creation times agree, so they differ only among orders created at the same instant |
| Orders.SameOrdersSameTimes | src/services/ordersService.ts:79-80 | two newest-first lists of the same orders have equal creation times position by position |
| Orders.UpdateOrderStatus | src/services/ordersService.ts:142-153 | a missing order is 'Failed to update order status'; otherwise only that order's status and updatedAt change, with no check of the previous status |
| Orders.CompleteOrder | src/services/ordersService.ts:158-160 | the order is closed, with only its updatedAt changed besides |
| Orders.CompleteOrderIdempotent | src/services/ordersService.ts:158-160 | completing twice is completing once at the later instant |
| Orders.ClosedOrderCanReopen | src/services/ordersService.ts:142-148 | a closed order can be set back to open |
| Checkout.OrderLines | src/pages/customer/Checkout.tsx:81-85 | the order's items are the cart lines' name, quantity and unit price, in order and of the same length |
| Checkout.OrderLinesSubtotal | src/pages/customer/Checkout.tsx:81-86 | the stored items price at exactly the cart's subtotal |
| Checkout.HandleSubmit | src/pages/customer/Checkout.tsx:56-102 | missing customer details, an unbound cart and a failed store each leave cart and orders unchanged with their own message. Otherwise the order is stored (the cart's restaurant, status open, the form's contact fields, the cart lines, total = getTotal), the cart is emptied, and the page goes to the confirmation of the new id |
| Checkout.OrderIgnoresAddressAndPayment | src/pages/customer/Checkout.tsx:75-87 | address, payment choice and special instructions never affect the order |
| Checkout.PlacedTotalMatchesItems | src/pages/customer/Checkout.tsx:75-87 | a placed order's total is its own items' sum plus 5 % plus the fee of 5 |
| Checkout.View | src/pages/customer/Checkout.tsx:40-45 | an empty cart redirects to the storefront's menu and renders nothing; otherwise the form is shown |
| CustomerAuthPage.Validate | src/pages/customer/CustomerAuth.tsx:33-47 | the first failing check reports: email and password, then (sign-up) name and phone, then a password of at least 6; no error iff all pass |
| CustomerAuthPage.HandleSubmit | src/pages/customer/CustomerAuth.tsx:28-64 | both errors are cleared. A call is made iff validation passes: sign-in or sign-up by mode, with the form's fields. A rejection shows its message on the page and in the context |
| CustomerAuthPage.CallsOnlyWithCompleteForm | src/pages/customer/CustomerAuth.tsx:33-56 | a call is made only with an email, a password of six or more and, to sign up, a name and a phone |
| CustomerAuthPage.ToggleMode | src/pages/customer/CustomerAuth.tsx:73-77 | flips the mode, keeps the fields and clears both errors |
| CustomerAuthPage.DisplayError | src/pages/customer/CustomerAuth.tsx:79 | the page's error when it is a non-empty string, the context's otherwise |
| CustomerAuthPage.SubmitShowsOneError | src/pages/customer/CustomerAuth.tsx:28-79 | after a submit the page shows the failed check, the provider's message, or nothing |
| CustomerAuthPage.ToggleTwice | src/pages/customer/CustomerAuth.tsx:73-79 | toggling twice restores the mode, and a toggle leaves no error shown |
| CustomerMenu.IndexOf | src/pages/customer/CustomerMenu.tsx:27 | the first position of the name, or -1 when it is absent |
| CustomerMenu.GetCategoryColor | src/pages/customer/CustomerMenu.tsx:16-29 | a listed category at first position i gets colour i mod 8; an unlisted one gets none |
| CustomerMenu.ColorsRepeatEveryEight | src/pages/customer/CustomerMenu.tsx:16-29 | in a list of distinct names, categories eight places apart share a colour |
| CustomerMenu.InCategory | src/pages/customer/CustomerMenu.tsx:82-88 | the reference filter holds exactly the items of the category |
| CustomerMenu.GroupItems | src/pages/customer/CustomerMenu.tsx:82-88 | a group exists exactly for the categories some item has |
| CustomerMenu.GroupsAreCategoryFilters | src/pages/customer/CustomerMenu.tsx:82-88 | each group is exactly its category's items in menu order |
| CustomerMenu.InsertName | src/pages/customer/CustomerMenu.tsx:90 | inserting into a strictly sorted name list keeps it strictly sorted and adds exactly that name |
| CustomerMenu.Categories | src/pages/customer/CustomerMenu.tsx:90 | the category list is strictly sorted by character code and holds exactly the group names |
| CustomerMenu.CategoriesDistinct | src/pages/customer/CustomerMenu.tsx:90 | no category name is listed twice |
| CustomerMenu.FilterMembers | src/pages/customer/CustomerMenu.tsx:93-98 | an item is shown iff the lower-cased query occurs in its lower-cased name or description and no category, or its own, is selected |
| CustomerMenu.FilterItems | src/pages/customer/CustomerMenu.tsx:93-98 | the `filter`; never longer than the menu, FilterMembers states its contents and EmptyFilterKeepsAll its identity case |
| CustomerMenu.MatchesSearch | src/pages/customer/CustomerMenu.tsx:94-95 | the lower-cased query occurs in the lower-cased name or description; FilterMembers uses it |
| CustomerMenu.MatchesCategory | src/pages/customer/CustomerMenu.tsx:96 | no category selected, or the item's own; FilterMembers and FilteredGroupsOnlySelected use it |
| CustomerMenu.EmptyFilterKeepsAll | src/pages/customer/CustomerMenu.tsx:93-98 | an empty query with no category selected shows the whole menu in order |
| CustomerMenu.FilteredGroupsOnlySelected | src/pages/customer/CustomerMenu.tsx:101-107 | with a category selected, only that category's group can appear |
| CustomerMenu.GetItemQuantityInCart | src/pages/customer/CustomerMenu.tsx:109-112 | the quantity of the first line for the item, or 0 when there is none |
| CustomerMenu.HandleAddToCart | src/pages/customer/CustomerMenu.tsx:114-117 | nothing happens until the restaurant is known; then the item's shown quantity becomes one more, or 1 when the cart switches restaurant |
| CustomerMenu.AddQuantityStep | src/contexts/CartContext.tsx:35-72 | ADD_ITEM raises the quantity of the first line for the item by one, or makes it 1 on a restaurant switch |
| CustomerMenu.MinusAtOneRemoves | src/pages/customer/CustomerMenu.tsx:319-323 | the minus control at quantity 1 removes the item's lines, which then read as quantity 0 |
| CustomerMenu.PlusIncrements | src/pages/customer/CustomerMenu.tsx:331-334 | the plus control raises the shown quantity by one |

## Left out

- Firebase I/O is left out: Firestore reads and writes, Auth sign-in and sign-up, `serverTimestamp`, and the subscription's error callbacks and unsubscribe. Its results are parameters, and a failing network call is not modelled. The model keeps only the error paths the code reaches on its own data: a missing document, an unavailable subdomain, a mapped provider error.
- `src/services/authService.ts` and `src/contexts/CustomerAuthContext.tsx` are thin wrappers over the identity provider. Sign-in appears only as an outcome parameter.
- The loading and submitting flags (`isLoading`, `isSubmitting`) are left out. Only the dashboard's final `isLoading` is kept, as UI state.
- localStorage persistence of the cart and JSON parsing are left out. LOAD_CART's verbatim replacement is kept.
- IEEE-754 floating point is left out. Money is exact and `toFixed(2)` is an explicit rounding, so float artefacts in the pinned test amounts are not reproduced.
- `toLowerCase` covers ASCII letters only. `trim` and `\s` use the ECMAScript white-space set. Unicode case mapping is not modelled.
- CustomerMenu.Categories: the sort compares characters by code point. JavaScript compares UTF-16 code units, which differs only for characters outside the Basic Multilingual Plane.
- CustomerMenu.GroupItems: the order of a JavaScript object's keys is not modelled. Only the sorted `categories` list is ordered. The accumulator is a plain object, so for a category named after an inherited member (`constructor`, `toString`, `valueOf`, `__proto__` and the like) the source finds a truthy value, calls `push` on it and throws, and the page fails to render. The model builds an ordinary group for such a name instead.
- Categories.UpdateCategory: an update carrying a required key explicitly as `undefined` is not representable. Only the optional `description` can be carried as `undefined`, and that update is refused, as the document store refuses `undefined` values by default. A store configured to ignore `undefined` values is not modelled.
- CustomerAuthService.UpdateSavedAddress: the same default configuration is assumed, so an `undefined` apartment or landmark copied into a matching entry makes the write fail. A store configured to ignore `undefined` values is not modelled.
- CustomerAuthService.AddSavedAddress: an address whose optional field is carried explicitly as `undefined` is not representable. The details hold either no value or a string.
- CustomerAuthService.AddSavedPaymentMethod: a payment method passed with `stripePaymentMethodId: undefined` is not representable. The document store would refuse that write, giving 'Failed to add payment method'. The model's field holds either no value or a string.
- CustomerAuthService.UpdateSavedAddress: an update carrying `label`, `street`, `city`, `state`, `zipCode` or `isDefault` explicitly as `undefined` is not representable. The merged entry would hold an undefined value and the write would fail. Those patch fields are either absent or a value; only `apartment` and `landmark` can be carried as `undefined`.
- Signup.CheckSubdomainAvailability, Signup.SubdomainError, Signup.PasswordError, CustomerAuthPage.Validate and CustomerAuthPage.CallsOnlyWithCompleteForm count a string's length in code points. JavaScript's `.length` counts UTF-16 code units, so the two differ for characters outside the Basic Multilingual Plane. For example, four emoji make a password of length 8 there and of length 4 here.
- SignupPreservesRegistry and SignupThenResolve take a sign-up as one atomic step: the availability check, the account creation and both document writes. In the source these are separate awaits. Two racing sign-ups for one subdomain can both pass the check, and a later lookup then returns whichever match the query gives first. Racing sign-ups are not modelled.
- SignupThenResolve: the round trip holds for a sign-up that runs alone. It depends on the atomic step described in the previous line.
- Menu.UpdateMenuItem: updates of the `id`, `createdAt` or `updatedAt` keys are not modelled.
- Timestamps and display orders are integers. Non-integer `displayOrder` values and the `Date` conversion of read-back timestamps are not modelled.
- Cart quantities are integers too. `CartItem.quantity` and `SliceItem.quantity` are `int`, while the source types them as `number`, so an UPDATE_QUANTITY or `updateQuantity` with a fractional quantity such as 2.5, which the source would store, is not representable. The callers in these files pass only whole quantities (1, a step of 1, 0).
- Categories.AddCategory: a category passed with `description` explicitly `undefined` is not representable. The spread copies that key into the new document, the document store refuses `undefined` values by default, and the source then throws 'Failed to add category'; the model's field holds either no value or a string, so it always stores the document.
- Orders.CreateOrder: an order passed with `customerEmail` or `customerPhone` explicitly `undefined` is not representable. The spread copies the key into the new document, the document store refuses it, and the source then throws 'Failed to create order'; the model's fields hold either no value or a string, so it always stores the order. Checkout passes the form's strings for both, so it never reaches that case.
- A document whose data itself carries an `id` field would override the document id in `{ id: doc.id, ...doc.data() }`. This is not modelled.
- Renaming a category does not cascade to menu items, and order statuses are not monotone. No code implements either, so neither is modelled.
- The display-only pages and components are not part of this model: Home, Header, Footer, Login, Restaurants, Cart, CustomerCart, OrderConfirmation, OrderTracking, Storefront, App and main. Neither is the `authSlice` reducer, whose source is not among the files.
- Checkout's pre-filling of the form from a signed-in customer's profile is left out, because it only sets initial form values.

=== FILE: admin_dashboard.dfy ===
/** The restaurant dashboard of `src/pages/store/AdminDashboard.tsx`: an
    owner signs in on the storefront's `/admin` page and sees the menu
    manager only when the signed-in profile belongs to that storefront's
    restaurant. */
module AdminDashboard {

  datatype DashboardState = DashboardState(isAuthenticated: bool, error: string, isLoading: bool)

  const Initial := DashboardState(false, "", false)

  /** What signing in answers: the restaurant the user's profile belongs
      to, or the message of the error it threw. */
  datatype LoginOutcome = LoggedIn(profileRestaurantId: string) | LoginFailed(message: string)

  /** The user's actions on the page: submitting the login form (with what
      signing in answered) and pressing Logout. */
  datatype Event = SubmitLogin(outcome: LoginOutcome) | LogoutClicked

  /** `handleLogin` for the storefront's restaurant `restaurantId`: the error
      is cleared first; a profile of another restaurant is refused with its
      own message; a failed sign-in shows the error's message; loading ends
      in every case. */
  function HandleLogin(s: DashboardState, restaurantId: string, outcome: LoginOutcome): (r: DashboardState)
    ensures !r.isLoading
    ensures r.isAuthenticated <==> s.isAuthenticated || outcome == LoggedIn(restaurantId)
    ensures r.error == "" <==> outcome == LoggedIn(restaurantId)
    ensures outcome.LoggedIn? && outcome.profileRestaurantId != restaurantId ==>
              r.error == "You do not have access to this restaurant"
    ensures outcome.LoginFailed? && outcome.message != "" ==> r.error == outcome.message
    ensures outcome == LoginFailed("") ==> r.error == "Failed to login"
  {
    var started := s.(error := "", isLoading := true);
    match outcome
    case LoggedIn(profileRestaurantId) =>
      if profileRestaurantId != restaurantId then
        started.(error := "You do not have access to this restaurant", isLoading := false)
      else
        started.(isAuthenticated := true, isLoading := false)
    case LoginFailed(message) =>
      started.(error := if message != "" then message else "Failed to login", isLoading := false)
  }

  /** The Logout button: back to the login form, nothing else changes. */
  function Logout(s: DashboardState): (r: DashboardState)
    ensures !r.isAuthenticated
    ensures r.error == s.error && r.isLoading == s.isLoading
  {
    s.(isAuthenticated := false)
  }

  function Step(s: DashboardState, restaurantId: string, e: Event): DashboardState
  {
    match e
    case SubmitLogin(outcome) => HandleLogin(s, restaurantId, outcome)
    case LogoutClicked => Logout(s)
  }

  /** The state after the user's actions, from a freshly opened page. */
  function Run(restaurantId: string, events: seq<Event>): DashboardState
  {
    if |events| == 0 then Initial
    else Step(Run(restaurantId, events[..|events| - 1]), restaurantId, events[|events| - 1])
  }

  /** The page renders the menu manager exactly when authenticated. */
  datatype View = LoginForm(error: string) | Dashboard(menuRestaurantId: string)

  function Render(s: DashboardState, restaurantId: string): (r: View)
    ensures r.Dashboard? <==> s.isAuthenticated
    ensures r.Dashboard? ==> r.menuRestaurantId == restaurantId
    ensures r.LoginForm? ==> r.error == s.error
  {
    if s.isAuthenticated then Dashboard(restaurantId) else LoginForm(s.error)
  }

  /** Event `i` is a sign-in whose profile belongs to `restaurantId`, and
      no Logout follows it. */
  predicate MatchingLoginStillActive(restaurantId: string, events: seq<Event>, i: int)
  {
    && 0 <= i < |events|
    && events[i] == SubmitLogin(LoggedIn(restaurantId))
    && forall j :: i < j < |events| ==> events[j] != LogoutClicked
  }

  /** The dashboard of a restaurant shows the menu manager exactly when,
      since the page was opened, someone whose profile belongs to that
      restaurant signed in and nobody has pressed Logout since. */
  lemma {:induction false} DashboardOnlyForOwner(restaurantId: string, events: seq<Event>)
    ensures Render(Run(restaurantId, events), restaurantId).Dashboard? <==>
            exists i :: MatchingLoginStillActive(restaurantId, events, i)
    decreases |events|
  {
    if |events| > 0 {
      var n := |events| - 1;
      var p := events[..n];
      DashboardOnlyForOwner(restaurantId, p);
      var before := Run(restaurantId, p);
      assert forall k :: 0 <= k < n ==> events[k] == p[k];
      match events[n]
      case LogoutClicked =>
        assert forall i :: !MatchingLoginStillActive(restaurantId, events, i) by {
          forall i ensures !MatchingLoginStillActive(restaurantId, events, i) {
            if 0 <= i < n { assert events[n] == LogoutClicked; }
          }
        }
      case SubmitLogin(outcome) =>
        if outcome == LoggedIn(restaurantId) {
          assert MatchingLoginStillActive(restaurantId, events, n);
        } else {
          forall i ensures MatchingLoginStillActive(restaurantId, events, i) <==>
                           MatchingLoginStillActive(restaurantId, p, i) {
          }
        }
    }
  }
}

=== FILE: cart_context.dfy ===
/** The customer cart of `src/contexts/CartContext.tsx`: a reducer over a
    cart bound to at most one restaurant at a time, and the prices the
    provider derives from it on demand. */
module CartContext {
  import opened Common
  import opened Menu

  /** One cart line: a snapshot of the menu item as it was added. */
  datatype CartItem = CartItem(menuItem: MenuItem, quantity: int, specialInstructions: Option<string>)

  datatype CartState = CartState(
    restaurantId: Option<string>,
    restaurantName: Option<string>,
    items: seq<CartItem>)

  datatype CartAction =
    | AddItem(menuItem: MenuItem, restaurantId: string, restaurantName: string)
    | RemoveItem(menuItemId: string)
    | UpdateQuantity(menuItemId: string, quantity: int)
    | UpdateInstructions(menuItemId: string, instructions: string)
    | ClearCart
    | LoadCart(payload: CartState)

  /** The empty cart, bound to no restaurant. */
  const InitialState := CartState(None, None, [])

  // ---------------------------------------------------------------------
  // Line-list helpers
  // ---------------------------------------------------------------------

  /** `items.findIndex(item => item.menuItem.id === id)`: the first line for
      that menu item, or -1. */
  function FindIndex(items: seq<CartItem>, id: string): (r: int)
    ensures -1 <= r < |items|
    ensures r >= 0 ==> items[r].menuItem.id == id
    ensures forall j :: 0 <= j < |items| && (r < 0 || j < r) ==> items[j].menuItem.id != id
  {
    if |items| == 0 then -1
    else if items[0].menuItem.id == id then 0
    else
      var k := FindIndex(items[1..], id);
      if k < 0 then -1 else k + 1
  }

  /** `items.filter(item => item.menuItem.id !== id)`. */
  function Without(items: seq<CartItem>, id: string): (r: seq<CartItem>)
    ensures |r| <= |items|
  {
    if |items| == 0 then []
    else (if items[0].menuItem.id == id then [] else [items[0]]) + Without(items[1..], id)
  }

  /** The lines kept are exactly those for other menu items. */
  lemma {:induction false} WithoutMembers(items: seq<CartItem>, id: string)
    ensures forall x :: x in Without(items, id) <==> x in items && x.menuItem.id != id
    decreases |items|
  {
    if |items| > 0 {
      WithoutMembers(items[1..], id);
      assert items == [items[0]] + items[1..];
    }
  }

  /** The lines for other menu items keep their relative order: filtering
      a concatenation filters each part. */
  lemma {:induction false} WithoutConcat(a: seq<CartItem>, b: seq<CartItem>, id: string)
    ensures Without(a + b, id) == Without(a, id) + Without(b, id)
    decreases |a|
  {
    if |a| > 0 {
      var head := if a[0].menuItem.id == id then [] else [a[0]];
      assert (a + b)[0] == a[0];
      assert (a + b)[1..] == a[1..] + b;
      WithoutConcat(a[1..], b, id);
      calc {
        Without(a + b, id);
        head + Without(a[1..] + b, id);
        head + (Without(a[1..], id) + Without(b, id));
        (head + Without(a[1..], id)) + Without(b, id);
        Without(a, id) + Without(b, id);
      }
    } else {
      assert a + b == b;
    }
  }

  /** Filtering out an id that no line carries leaves the lines as they are. */
  lemma {:induction false} WithoutAbsent(items: seq<CartItem>, id: string)
    requires forall i :: 0 <= i < |items| ==> items[i].menuItem.id != id
    ensures Without(items, id) == items
    decreases |items|
  {
    if |items| > 0 {
      WithoutAbsent(items[1..], id);
      assert [items[0]] + items[1..] == items;
    }
  }

  /** `items.map(item => item.menuItem.id === id ? { ...item, quantity: q } : item)`. */
  function SetQuantity(items: seq<CartItem>, id: string, q: int): (r: seq<CartItem>)
    ensures |r| == |items|
  {
    seq(|items|, i requires 0 <= i < |items| =>
      if items[i].menuItem.id == id then items[i].(quantity := q) else items[i])
  }

  /** `items.map(item => item.menuItem.id === id ? { ...item, specialInstructions: text } : item)`. */
  function SetInstructions(items: seq<CartItem>, id: string, text: string): (r: seq<CartItem>)
    ensures |r| == |items|
  {
    seq(|items|, i requires 0 <= i < |items| =>
      if items[i].menuItem.id == id then items[i].(specialInstructions := Some(text)) else items[i])
  }

  /** The REMOVE_ITEM case: drop the lines, and unbind the restaurant when
      none remain. */
  function RemoveLines(s: CartState, id: string): CartState
  {
    var rest := Without(s.items, id);
    CartState(
      if |rest| == 0 then None else s.restaurantId,
      if |rest| == 0 then None else s.restaurantName,
      rest)
  }

  // ---------------------------------------------------------------------
  // The reducer
  // ---------------------------------------------------------------------

  /** The ADD_ITEM branch that starts a new cart: the cart is bound (to a
      truthy id) and the item comes from another restaurant. */
  predicate SwitchesRestaurant(s: CartState, restaurantId: string)
  {
    Truthy(s.restaurantId) && s.restaurantId.value != restaurantId
  }

  /** `cartReducer`. */
  function Reduce(s: CartState, a: CartAction): CartState
  {
    match a
    case AddItem(m, rid, rname) =>
      if SwitchesRestaurant(s, rid) then
        CartState(Some(rid), Some(rname), [CartItem(m, 1, None)])
      else
        var i := FindIndex(s.items, m.id);
        if i >= 0 then
          s.(items := s.items[i := s.items[i].(quantity := s.items[i].quantity + 1)])
        else
          CartState(Some(rid), Some(rname), s.items + [CartItem(m, 1, None)])
    case RemoveItem(id) => RemoveLines(s, id)
    case UpdateQuantity(id, q) =>
      if q <= 0 then RemoveLines(s, id) else s.(items := SetQuantity(s.items, id, q))
    case UpdateInstructions(id, text) => s.(items := SetInstructions(s.items, id, text))
    case ClearCart => InitialState
    case LoadCart(p) => p
  }

  /** Dispatching a sequence of actions in order. */
  function ReduceAll(s: CartState, actions: seq<CartAction>): CartState
    decreases |actions|
  {
    if |actions| == 0 then s
    else ReduceAll(Reduce(s, actions[0]), actions[1..])
  }

  // ---------------------------------------------------------------------
  // Properties of single actions
  // ---------------------------------------------------------------------

  /** Adding an item from another restaurant discards the cart and starts
      a new one holding just that item, once. */
  lemma AddFromOtherRestaurant(s: CartState, m: MenuItem, rid: string, rname: string)
    requires s.restaurantId.Some? && s.restaurantId.value != "" && s.restaurantId.value != rid
    ensures Reduce(s, AddItem(m, rid, rname)) == CartState(Some(rid), Some(rname), [CartItem(m, 1, None)])
  {
  }

  /** Adding an item already in the cart increments that line by one and
      changes nothing else, binding included. */
  lemma AddExistingIncrements(s: CartState, m: MenuItem, rid: string, rname: string, i: int)
    requires !SwitchesRestaurant(s, rid)
    requires 0 <= i < |s.items| && s.items[i].menuItem.id == m.id
    requires DistinctIds(s.items)
    ensures var t := Reduce(s, AddItem(m, rid, rname));
      && |t.items| == |s.items|
      && t.items[i] == s.items[i].(quantity := s.items[i].quantity + 1)
      && (forall j :: 0 <= j < |s.items| && j != i ==> t.items[j] == s.items[j])
      && t.restaurantId == s.restaurantId && t.restaurantName == s.restaurantName
  {
  }

  /** Adding an item not yet in the cart appends one line of quantity 1 and
      binds the cart to the payload's restaurant. */
  lemma AddNewAppends(s: CartState, m: MenuItem, rid: string, rname: string)
    requires !SwitchesRestaurant(s, rid)
    requires forall j :: 0 <= j < |s.items| ==> s.items[j].menuItem.id != m.id
    ensures var t := Reduce(s, AddItem(m, rid, rname));
      && t.items == s.items + [CartItem(m, 1, None)]
      && t.restaurantId == Some(rid) && t.restaurantName == Some(rname)
  {
  }

  /** REMOVE_ITEM drops exactly the lines of that menu item, keeps the
      others in order, and unbinds the cart exactly when it empties. */
  lemma RemoveItemSpec(s: CartState, id: string)
    ensures var t := Reduce(s, RemoveItem(id));
      && (forall x :: x in t.items <==> x in s.items && x.menuItem.id != id)
      && (|t.items| == 0 ==> t.restaurantId.None? && t.restaurantName.None?)
      && (|t.items| > 0 ==> t.restaurantId == s.restaurantId && t.restaurantName == s.restaurantName)
  {
    WithoutMembers(s.items, id);
  }

  /** Removing a menu item the cart does not hold leaves the lines as they are. */
  lemma RemoveAbsentKeepsItems(s: CartState, id: string)
    requires forall j :: 0 <= j < |s.items| ==> s.items[j].menuItem.id != id
    ensures Reduce(s, RemoveItem(id)).items == s.items
  {
    WithoutAbsent(s.items, id);
  }

  /** A quantity of zero or less is the same action as REMOVE_ITEM. */
  lemma NonPositiveQuantityRemoves(s: CartState, id: string, q: int)
    requires q <= 0
    ensures Reduce(s, UpdateQuantity(id, q)) == Reduce(s, RemoveItem(id))
  {
  }

  /** A positive quantity replaces the quantity of the matching lines only. */
  lemma PositiveQuantitySets(s: CartState, id: string, q: int)
    requires q > 0
    ensures var t := Reduce(s, UpdateQuantity(id, q));
      && |t.items| == |s.items|
      && t.restaurantId == s.restaurantId && t.restaurantName == s.restaurantName
      && (forall j :: 0 <= j < |s.items| ==>
            t.items[j] == if s.items[j].menuItem.id == id then s.items[j].(quantity := q) else s.items[j])
  {
  }

  /** UPDATE_INSTRUCTIONS touches only the instructions of matching lines. */
  lemma UpdateInstructionsSpec(s: CartState, id: string, text: string)
    ensures var t := Reduce(s, UpdateInstructions(id, text));
      && |t.items| == |s.items|
      && t.restaurantId == s.restaurantId && t.restaurantName == s.restaurantName
      && (forall j :: 0 <= j < |s.items| ==>
            && t.items[j].menuItem == s.items[j].menuItem
            && t.items[j].quantity == s.items[j].quantity
            && t.items[j].specialInstructions ==
                 if s.items[j].menuItem.id == id then Some(text) else s.items[j].specialInstructions)
  {
  }

  /** CLEAR_CART forgets the cart and its binding whatever it held;
      LOAD_CART installs its payload as it is, unchecked. */
  lemma ClearAndLoadReplaceState(s: CartState, p: CartState)
    ensures Reduce(s, ClearCart) == CartState(None, None, [])
    ensures Reduce(s, LoadCart(p)) == p
  {
  }

  // ---------------------------------------------------------------------
  // The cart invariant
  // ---------------------------------------------------------------------

  /** No two lines hold the same menu item. */
  ghost predicate DistinctIds(items: seq<CartItem>)
  {
    forall i, j :: 0 <= i < j < |items| ==> items[i].menuItem.id != items[j].menuItem.id
  }

  /** A cart is either unbound and empty, or bound to one restaurant (by a
      non-empty id and a name) whose items it alone holds, each menu item
      on one line with a quantity of at least one. */
  ghost predicate Wf(s: CartState)
  {
    && (s.restaurantId.None? <==> |s.items| == 0)
    && (s.restaurantName.None? <==> s.restaurantId.None?)
    && (s.restaurantId.Some? ==> s.restaurantId.value != "")
    && (forall i :: 0 <= i < |s.items| ==> s.items[i].quantity >= 1)
    && (forall i :: 0 <= i < |s.items| ==>
          s.restaurantId.Some? && s.items[i].menuItem.data.restaurantId == s.restaurantId.value)
    && DistinctIds(s.items)
  }

  /** The actions the application dispatches after start-up: an item is
      added together with the (non-empty) id of the restaurant it belongs
      to. LOAD_CART only replays a stored snapshot. */
  predicate Coherent(a: CartAction)
  {
    && !a.LoadCart?
    && (a.AddItem? ==> a.restaurantId != "" && a.menuItem.data.restaurantId == a.restaurantId)
  }

  lemma {:induction false} WithoutDistinct(items: seq<CartItem>, id: string)
    requires DistinctIds(items)
    ensures DistinctIds(Without(items, id))
    decreases |items|
  {
    if |items| > 0 {
      var tail := items[1..];
      assert DistinctIds(tail) by {
        forall i, j | 0 <= i < j < |tail| ensures tail[i].menuItem.id != tail[j].menuItem.id {
          assert tail[i] == items[i + 1] && tail[j] == items[j + 1];
        }
      }
      WithoutDistinct(tail, id);
      WithoutMembers(tail, id);
      var rest := Without(tail, id);
      forall x | x in rest ensures x.menuItem.id != items[0].menuItem.id {
        assert x in tail;
        var k :| 0 <= k < |tail| && tail[k] == x;
        assert items[k + 1] == x;
      }
    }
  }

  /** Every action the application dispatches keeps the cart invariant. */
  lemma ReducePreservesWf(s: CartState, a: CartAction)
    requires Wf(s) && Coherent(a)
    ensures Wf(Reduce(s, a))
  {
    match a
    case AddItem(m, rid, rname) =>
      if !SwitchesRestaurant(s, rid) {
        var i := FindIndex(s.items, m.id);
        if i < 0 {
          var t := Reduce(s, a);
          assert t.items == s.items + [CartItem(m, 1, None)];
          assert s.restaurantId.Some? ==> s.restaurantId.value == rid;
        }
      }
    case RemoveItem(id) =>
      WithoutDistinct(s.items, id);
      RemoveLinesWf(s, id);
    case UpdateQuantity(id, q) =>
      if q <= 0 {
        WithoutDistinct(s.items, id);
        RemoveLinesWf(s, id);
      }
    case UpdateInstructions(id, text) =>
    case ClearCart =>
  }

  lemma RemoveLinesWf(s: CartState, id: string)
    requires Wf(s) && DistinctIds(Without(s.items, id))
    ensures Wf(RemoveLines(s, id))
  {
    var t := RemoveLines(s, id);
    WithoutMembers(s.items, id);
    forall i | 0 <= i < |t.items|
      ensures t.items[i].quantity >= 1
      ensures t.restaurantId.Some? && t.items[i].menuItem.data.restaurantId == t.restaurantId.value
    {
      assert t.items[i] in s.items;
    }
  }

  /** Every cart the application can reach from the initial state, by any
      sequence of dispatched actions, satisfies the invariant. */
  lemma {:induction false} ReachableCartsWf(s: CartState, actions: seq<CartAction>)
    requires Wf(s)
    requires forall i :: 0 <= i < |actions| ==> Coherent(actions[i])
    ensures Wf(ReduceAll(s, actions))
    decreases |actions|
  {
    if |actions| > 0 {
      ReducePreservesWf(s, actions[0]);
      ReachableCartsWf(Reduce(s, actions[0]), actions[1..]);
    }
  }

  lemma InitialStateWf()
    ensures Wf(InitialState)
  {
  }

  // ---------------------------------------------------------------------
  // Derived prices
  // ---------------------------------------------------------------------

  /** `getItemCount`: the sum of the quantities. */
  function GetItemCount(items: seq<CartItem>): int
  {
    if |items| == 0 then 0 else GetItemCount(items[..|items| - 1]) + items[|items| - 1].quantity
  }

  /** `getSubtotal`: the sum of price times quantity. */
  function GetSubtotal(items: seq<CartItem>): real
  {
    if |items| == 0 then 0.0
    else GetSubtotal(items[..|items| - 1]) + items[|items| - 1].menuItem.data.price * items[|items| - 1].quantity as real
  }

  /** Every line counts at least once when all quantities are positive. */
  lemma {:induction false} CountAtLeastLines(items: seq<CartItem>)
    requires forall i :: 0 <= i < |items| ==> items[i].quantity > 0
    ensures GetItemCount(items) >= |items|
    decreases |items|
  {
    if |items| > 0 {
      CountAtLeastLines(items[..|items| - 1]);
    }
  }

  /** No line of non-negative price and quantity makes the subtotal negative. */
  lemma {:induction false} SubtotalNonNegative(items: seq<CartItem>)
    requires forall i :: 0 <= i < |items| ==> items[i].menuItem.data.price >= 0.0 && items[i].quantity >= 0
    ensures GetSubtotal(items) >= 0.0
    decreases |items|
  {
    if |items| > 0 {
      var n := |items| - 1;
      SubtotalNonNegative(items[..n]);
      assert items[n].menuItem.data.price * items[n].quantity as real >= 0.0;
    }
  }

  /** `getTaxes`: five per cent of the subtotal, unrounded. */
  function GetTaxes(items: seq<CartItem>): real
  {
    GetSubtotal(items) * 0.05
  }

  /** `getDeliveryFee`: a fixed 5 whenever the cart has a line. */
  function GetDeliveryFee(items: seq<CartItem>): real
  {
    if |items| > 0 then 5.0 else 0.0
  }

  /** `getTotal`. */
  function GetTotal(items: seq<CartItem>): real
  {
    GetSubtotal(items) + GetTaxes(items) + GetDeliveryFee(items)
  }

  /** The price of one line. */
  function LineAmount(x: CartItem): real
  {
    x.menuItem.data.price * x.quantity as real
  }

  /** Replacing one line changes the item count by the change in that
      line's quantity and the subtotal by the change in its amount. */
  lemma {:induction false} SumsAfterUpdate(items: seq<CartItem>, i: int, x: CartItem)
    requires 0 <= i < |items|
    ensures GetItemCount(items[i := x]) == GetItemCount(items) - items[i].quantity + x.quantity
    ensures GetSubtotal(items[i := x]) == GetSubtotal(items) - LineAmount(items[i]) + LineAmount(x)
    decreases |items|
  {
    var n := |items| - 1;
    var u := items[i := x];
    assert u[..n] == if i < n then items[..n][i := x] else items[..n];
    if i < n {
      SumsAfterUpdate(items[..n], i, x);
    }
  }

  /** The quantity with which `id` occurs in a list without duplicate ids. */
  function QuantityOf(items: seq<CartItem>, id: string): int
  {
    var i := FindIndex(items, id);
    if i >= 0 then items[i].quantity else 0
  }

  /** Dropping the lines of one menu item lowers the item count by that
      item's quantity. */
  lemma {:induction false} CountWithout(items: seq<CartItem>, id: string)
    requires DistinctIds(items)
    ensures GetItemCount(Without(items, id)) == GetItemCount(items) - QuantityOf(items, id)
    decreases |items|
  {
    if |items| > 0 {
      var n := |items| - 1;
      var init, last := items[..n], items[n];
      var tail := if last.menuItem.id == id then [] else [last];
      DistinctPrefix(items, n);
      CountWithout(init, id);
      WithoutSnoc(items, id);
      CountAppend(Without(init, id), tail);
      QuantityOfSnoc(items, id);
      SingleCount(tail, last, last.menuItem.id == id);
    }
  }

  lemma SingleCount(tail: seq<CartItem>, x: CartItem, dropped: bool)
    requires tail == if dropped then [] else [x]
    ensures GetItemCount(tail) == if dropped then 0 else x.quantity
  {
    if !dropped {
      assert tail[..0] == [];
    }
  }

  lemma DistinctPrefix(items: seq<CartItem>, n: int)
    requires 0 <= n <= |items| && DistinctIds(items)
    ensures DistinctIds(items[..n])
  {
  }

  /** Filtering a list, split at its last line. */
  lemma WithoutSnoc(items: seq<CartItem>, id: string)
    requires |items| > 0
    ensures var n := |items| - 1;
      Without(items, id) == Without(items[..n], id) + (if items[n].menuItem.id == id then [] else [items[n]])
  {
    var n := |items| - 1;
    assert items == items[..n] + [items[n]];
    WithoutConcat(items[..n], [items[n]], id);
    assert [items[n]][1..] == [];
  }

  /** The quantity read for an id, split at the last line. */
  lemma QuantityOfSnoc(items: seq<CartItem>, id: string)
    requires |items| > 0 && DistinctIds(items)
    ensures var n := |items| - 1;
      QuantityOf(items, id) == QuantityOf(items[..n], id) + (if items[n].menuItem.id == id then items[n].quantity else 0)
  {
    var n := |items| - 1;
    var init, last := items[..n], items[n];
    assert items == init + [last];
    if last.menuItem.id == id {
      assert forall j :: 0 <= j < n ==> init[j].menuItem.id != id;
      assert FindIndex(init, id) < 0;
      assert FindIndex(items, id) == n;
    } else {
      FindIndexPrefix(init, last, id);
    }
  }

  lemma {:induction false} FindIndexPrefix(init: seq<CartItem>, last: CartItem, id: string)
    requires last.menuItem.id != id
    ensures FindIndex(init + [last], id) == FindIndex(init, id)
  {
    var i := FindIndex(init + [last], id);
    var k := FindIndex(init, id);
    if k >= 0 {
      assert (init + [last])[k] == init[k];
    }
    if i >= 0 {
      assert i < |init|;
      assert (init + [last])[i] == init[i];
    }
  }

  lemma {:induction false} CountAppend(a: seq<CartItem>, b: seq<CartItem>)
    ensures GetItemCount(a + b) == GetItemCount(a) + GetItemCount(b)
    decreases |b|
  {
    if |b| == 0 {
      assert a + b == a;
    } else {
      var n := |b| - 1;
      assert (a + b)[..|a + b| - 1] == a + b[..n];
      CountAppend(a, b[..n]);
    }
  }

  /** The unit price ADD_ITEM charges: a line already in the cart keeps the
      price of the snapshot taken when it was first added. */
  function UnitPriceOnAdd(s: CartState, m: MenuItem, rid: string): real
  {
    var i := FindIndex(s.items, m.id);
    if !SwitchesRestaurant(s, rid) && i >= 0 then s.items[i].menuItem.data.price else m.data.price
  }

  /** ADD_ITEM, read through the derived prices: the item count grows by
      one and the subtotal by one unit price, unless the cart switches
      restaurant, where both restart from that single unit. */
  lemma AddItemPrices(s: CartState, m: MenuItem, rid: string, rname: string)
    ensures var t := Reduce(s, AddItem(m, rid, rname));
      && GetItemCount(t.items) == (if SwitchesRestaurant(s, rid) then 1 else GetItemCount(s.items) + 1)
      && GetSubtotal(t.items) ==
           (if SwitchesRestaurant(s, rid) then 0.0 else GetSubtotal(s.items)) + UnitPriceOnAdd(s, m, rid)
      && GetDeliveryFee(t.items) == 5.0
  {
    if !SwitchesRestaurant(s, rid) {
      var i := FindIndex(s.items, m.id);
      if i >= 0 {
        var x := s.items[i];
        var p := x.menuItem.data.price;
        assert LineAmount(x.(quantity := x.quantity + 1)) == LineAmount(x) + p by {
          assert p * (x.quantity + 1) as real == p * x.quantity as real + p;
        }
        SumsAfterUpdate(s.items, i, x.(quantity := x.quantity + 1));
      } else {
        var t := Reduce(s, AddItem(m, rid, rname));
        assert t.items[..|t.items| - 1] == s.items;
      }
    } else {
      var t := Reduce(s, AddItem(m, rid, rname));
      assert t.items[..0] == [];
    }
  }

  /** REMOVE_ITEM, read through the derived prices: the item count drops by
      the removed line's quantity. */
  lemma RemoveItemCount(s: CartState, id: string)
    requires Wf(s)
    ensures GetItemCount(Reduce(s, RemoveItem(id)).items) == GetItemCount(s.items) - QuantityOf(s.items, id)
  {
    CountWithout(s.items, id);
  }

  /** The derived prices of any cart: a non-empty cart costs its subtotal,
      five per cent on top, and the fee of 5; an empty one costs nothing. */
  lemma PricesOfCart(items: seq<CartItem>)
    ensures GetTotal(items) == GetSubtotal(items) * 1.05 + (if |items| > 0 then 5.0 else 0.0)
    ensures |items| == 0 ==> GetTotal(items) == 0.0 && GetItemCount(items) == 0
  {
  }
}

=== FILE: cart_slice.dfy ===
/** The Redux cart of `src/store/slices/cartSlice.ts`. Unlike the cart
    context, lines may carry paid add-ons, the restaurant binding is set by
    its own action and never cleared by removals, and the four amounts are
    stored fields, recomputed and rounded to hundredths after every change
    of the lines. */
module CartSlice {
  import opened Common

  /** A paid option of a customisation (`CustomizationOption`). */
  datatype AddOn = AddOn(id: string, name: string, price: real)

  datatype SelectedCustomization = SelectedCustomization(
    customizationId: string,
    customizationName: string,
    options: seq<AddOn>)

  /** The menu-item shape of `src/types/index.ts`. */
  datatype SliceMenuItem = SliceMenuItem(
    id: string,
    restaurantId: string,
    name: string,
    description: string,
    price: real,
    category: string,
    isVeg: bool,
    isAvailable: bool)

  /** A cart line; an absent `selectedCustomizations` is the empty list. */
  datatype SliceItem = SliceItem(
    menuItem: SliceMenuItem,
    quantity: int,
    selectedCustomizations: seq<SelectedCustomization>,
    specialInstructions: Option<string>)

  datatype SliceState = SliceState(
    restaurantId: string,
    restaurantName: string,
    items: seq<SliceItem>,
    subtotal: real,
    deliveryFee: real,
    taxes: real,
    total: real)

  const InitialState := SliceState("", "", [], 0.0, 0.0, 0.0, 0.0)

  /** The fixed delivery fee of a cart whose subtotal is positive. */
  const DeliveryFee: real := 40.0

  // ---------------------------------------------------------------------
  // calculateTotals
  // ---------------------------------------------------------------------

  /** The sum of the option prices of one customisation. */
  function OptionsPrice(options: seq<AddOn>): real
  {
    if |options| == 0 then 0.0
    else OptionsPrice(options[..|options| - 1]) + options[|options| - 1].price
  }

  /** The price the selected customisations add to one unit. */
  function CustomizationPrice(cs: seq<SelectedCustomization>): real
  {
    if |cs| == 0 then 0.0
    else CustomizationPrice(cs[..|cs| - 1]) + OptionsPrice(cs[|cs| - 1].options)
  }

  /** One line: unit price plus add-ons, times the quantity. */
  function LineAmount(x: SliceItem): real
  {
    (x.menuItem.price + CustomizationPrice(x.selectedCustomizations)) * x.quantity as real
  }

  /** The subtotal before rounding. */
  function RawSubtotal(items: seq<SliceItem>): real
  {
    if |items| == 0 then 0.0 else RawSubtotal(items[..|items| - 1]) + LineAmount(items[|items| - 1])
  }

  datatype Totals = Totals(subtotal: real, deliveryFee: real, taxes: real, total: real)

  /** `calculateTotals`: the fee is decided on the unrounded subtotal, and
      the tax and the total are computed from unrounded values before each
      is rounded on its own. */
  function CalculateTotals(items: seq<SliceItem>): (t: Totals)
    ensures IsCents(t.subtotal) && IsCents(t.taxes) && IsCents(t.total)
    ensures RawSubtotal(items) - 0.005 <= t.subtotal <= RawSubtotal(items) + 0.005
    ensures t.deliveryFee == (if RawSubtotal(items) > 0.0 then DeliveryFee else 0.0)
    ensures RawSubtotal(items) * 0.05 - 0.005 <= t.taxes <= RawSubtotal(items) * 0.05 + 0.005
    ensures var raw := RawSubtotal(items) + t.deliveryFee + RawSubtotal(items) * 0.05;
      raw - 0.005 <= t.total <= raw + 0.005
    ensures RawSubtotal(items) >= 0.0 ==>
      var raw := RawSubtotal(items) + t.deliveryFee + RawSubtotal(items) * 0.05;
      && RawSubtotal(items) - 0.005 < t.subtotal
      && RawSubtotal(items) * 0.05 - 0.005 < t.taxes
      && raw - 0.005 < t.total
    ensures RawSubtotal(items) >= 0.0 ==> t.subtotal >= 0.0 && t.taxes >= 0.0 && t.total >= t.deliveryFee
    ensures |items| == 0 ==> t == Totals(0.0, 0.0, 0.0, 0.0)
  {
    var sub := RawSubtotal(items);
    var fee := if sub > 0.0 then DeliveryFee else 0.0;
    var tax := sub * 0.05;
    RoundedTotalCoversFee(sub);
    Round2OfCents(0.0);
    Totals(Round2(sub), fee, Round2(tax), Round2(sub + fee + tax))
  }

  lemma RoundedTotalCoversFee(sub: real)
    ensures var fee := if sub > 0.0 then DeliveryFee else 0.0;
      sub >= 0.0 ==> Round2(sub + fee + sub * 0.05) >= fee
  {
    var fee := if sub > 0.0 then DeliveryFee else 0.0;
    assert IsCents(fee) by { assert fee * 100.0 == (if sub > 0.0 then 4000 else 0) as real; }
    if sub >= 0.0 {
      Round2ShiftCents(sub + sub * 0.05, fee);
    }
  }

  /** The stored amounts are those `calculateTotals` gives for the lines. */
  predicate Consistent(s: SliceState)
  {
    Totals(s.subtotal, s.deliveryFee, s.taxes, s.total) == CalculateTotals(s.items)
  }

  /** Replaces the lines and recomputes the amounts from scratch. */
  function WithItems(s: SliceState, items: seq<SliceItem>): (r: SliceState)
    ensures Consistent(r) && r.items == items
    ensures r.restaurantId == s.restaurantId && r.restaurantName == s.restaurantName
  {
    var t := CalculateTotals(items);
    s.(items := items, subtotal := t.subtotal, deliveryFee := t.deliveryFee, taxes := t.taxes, total := t.total)
  }

  // ---------------------------------------------------------------------
  // Reducers
  // ---------------------------------------------------------------------

  /** `state.items.findIndex(item => item.menuItem.id === id)`. The slice
      writes its own search and filter over its own line type, apart from
      the context's, and so does this model. */
  function FindIndex(items: seq<SliceItem>, id: string): (r: int)
    ensures -1 <= r < |items|
    ensures r >= 0 ==> items[r].menuItem.id == id
    ensures forall j :: 0 <= j < |items| && (r < 0 || j < r) ==> items[j].menuItem.id != id
  {
    if |items| == 0 then -1
    else if items[0].menuItem.id == id then 0
    else
      var k := FindIndex(items[1..], id);
      if k < 0 then -1 else k + 1
  }

  /** `state.items.filter(item => item.menuItem.id !== id)`. */
  function Without(items: seq<SliceItem>, id: string): (r: seq<SliceItem>)
    ensures forall x :: x in r <==> x in items && x.menuItem.id != id
    ensures |r| <= |items|
  {
    if |items| == 0 then []
    else (if items[0].menuItem.id == id then [] else [items[0]]) + Without(items[1..], id)
  }

  lemma {:induction false} WithoutAbsent(items: seq<SliceItem>, id: string)
    requires forall i :: 0 <= i < |items| ==> items[i].menuItem.id != id
    ensures Without(items, id) == items
    decreases |items|
  {
    if |items| > 0 {
      WithoutAbsent(items[1..], id);
      assert [items[0]] + items[1..] == items;
    }
  }

  /** `addItem`: adds the payload's quantity to the first line of that menu
      item (keeping that line's add-ons), or appends the payload line. */
  function AddItem(s: SliceState, payload: SliceItem): (r: SliceState)
    ensures Consistent(r)
    ensures r.restaurantId == s.restaurantId && r.restaurantName == s.restaurantName
  {
    var i := FindIndex(s.items, payload.menuItem.id);
    if i > -1 then
      WithItems(s, s.items[i := s.items[i].(quantity := s.items[i].quantity + payload.quantity)])
    else
      WithItems(s, s.items + [payload])
  }

  /** `removeItem`: drops every line of that menu item; the binding stays. */
  function RemoveItem(s: SliceState, id: string): (r: SliceState)
    ensures Consistent(r)
    ensures r.restaurantId == s.restaurantId && r.restaurantName == s.restaurantName
    ensures forall x :: x in r.items <==> x in s.items && x.menuItem.id != id
  {
    WithItems(s, Without(s.items, id))
  }

  /** `updateQuantity`: a quantity of zero or less drops every line of that
      menu item; a positive one replaces the quantity of the first such
      line only. */
  function UpdateQuantity(s: SliceState, id: string, q: int): (r: SliceState)
    ensures Consistent(r)
    ensures r.restaurantId == s.restaurantId && r.restaurantName == s.restaurantName
    ensures q <= 0 ==> forall x :: x in r.items <==> x in s.items && x.menuItem.id != id
  {
    if q <= 0 then WithItems(s, Without(s.items, id))
    else
      var i := FindIndex(s.items, id);
      WithItems(s, if i > -1 then s.items[i := s.items[i].(quantity := q)] else s.items)
  }

  /** `setRestaurant`: the amounts are not recomputed, the lines not touched. */
  function SetRestaurant(s: SliceState, restaurantId: string, restaurantName: string): (r: SliceState)
    ensures r.items == s.items
    ensures (r.subtotal, r.deliveryFee, r.taxes, r.total) == (s.subtotal, s.deliveryFee, s.taxes, s.total)
    ensures r.restaurantId == restaurantId && r.restaurantName == restaurantName
  {
    s.(restaurantId := restaurantId, restaurantName := restaurantName)
  }

  /** `clearCart`: every field back to its initial value. */
  function ClearCart(s: SliceState): (r: SliceState)
    ensures r == InitialState && Consistent(r)
  {
    assert CalculateTotals([]) == Totals(0.0, 0.0, 0.0, 0.0);
    SliceState("", "", [], 0.0, 0.0, 0.0, 0.0)
  }

  // ---------------------------------------------------------------------
  // Properties
  // ---------------------------------------------------------------------

  /** `addItem` of a menu item already in the cart adds the payload quantity
      to its first line and keeps the number of lines; otherwise the
      payload becomes the last line. */
  lemma AddItemLines(s: SliceState, payload: SliceItem)
    ensures var r := AddItem(s, payload);
      var i := FindIndex(s.items, payload.menuItem.id);
      && (i >= 0 ==>
            && |r.items| == |s.items|
            && r.items[i].quantity == s.items[i].quantity + payload.quantity
            && r.items[i].selectedCustomizations == s.items[i].selectedCustomizations
            && (forall j :: 0 <= j < |s.items| && j != i ==> r.items[j] == s.items[j]))
      && (i < 0 ==> r.items == s.items + [payload])
  {
  }

  /** `updateQuantity` with a positive quantity on an absent id, and
      `removeItem` of an absent id, leave the lines unchanged. */
  lemma AbsentIdKeepsLines(s: SliceState, id: string, q: int)
    requires forall j :: 0 <= j < |s.items| ==> s.items[j].menuItem.id != id
    ensures UpdateQuantity(s, id, q).items == s.items
    ensures RemoveItem(s, id).items == s.items
  {
    WithoutAbsent(s.items, id);
  }

  /** A positive `updateQuantity` sets the first matching line only: later
      duplicates of the same menu item keep their quantity. */
  lemma UpdateQuantityFirstOnly(s: SliceState, id: string, q: int)
    requires q > 0
    ensures var r := UpdateQuantity(s, id, q);
      var i := FindIndex(s.items, id);
      && |r.items| == |s.items|
      && (i >= 0 ==> r.items[i].quantity == q)
      && (forall j :: 0 <= j < |s.items| && j != i ==> r.items[j] == s.items[j])
  {
  }

  /** `updateQuantity` with a quantity of zero or less is `removeItem`. */
  lemma NonPositiveQuantityRemoves(s: SliceState, id: string, q: int)
    requires q <= 0
    ensures UpdateQuantity(s, id, q) == RemoveItem(s, id)
  {
  }

  /** The stored amounts stay what `calculateTotals` gives for the lines,
      whatever reducer runs: they are recomputed, never patched. */
  lemma ReducersKeepTotals(s: SliceState, payload: SliceItem, id: string, q: int, rid: string, rname: string)
    requires Consistent(s)
    ensures Consistent(AddItem(s, payload)) && Consistent(RemoveItem(s, id))
    ensures Consistent(UpdateQuantity(s, id, q)) && Consistent(SetRestaurant(s, rid, rname))
    ensures Consistent(ClearCart(s))
  {
  }

  lemma IsCentsAdd(a: real, b: real)
    requires IsCents(a) && IsCents(b)
    ensures IsCents(a + b)
  {
    var n, m := (a * 100.0).Floor, (b * 100.0).Floor;
    assert (a + b) * 100.0 == (n + m) as real;
  }

  /** When the unrounded subtotal is a whole number of hundredths (prices in
      hundredths, whole quantities), the stored total is the rounded sum of
      the stored subtotal, fee and tax. */
  lemma TotalOfStoredAmounts(items: seq<SliceItem>)
    requires RawSubtotal(items) >= 0.0 && IsCents(RawSubtotal(items))
    ensures var t := CalculateTotals(items);
      t.total == Round2(t.subtotal + t.deliveryFee + t.taxes)
  {
    StoredTotalIdentity(RawSubtotal(items));
  }

  /** The arithmetic behind `TotalOfStoredAmounts`, for one subtotal. */
  lemma StoredTotalIdentity(sub: real)
    requires sub >= 0.0 && IsCents(sub)
    ensures var fee := if sub > 0.0 then DeliveryFee else 0.0;
      Round2(sub + fee + sub * 0.05) == Round2(Round2(sub) + fee + Round2(sub * 0.05))
  {
    var fee := if sub > 0.0 then DeliveryFee else 0.0;
    var tax := sub * 0.05;
    FeeIsCents(sub);
    IsCentsAdd(sub, fee);
    Round2OfCents(sub);
    Round2ShiftCents(tax, sub + fee);
    assert sub + fee + tax == tax + (sub + fee);
    IsCentsAdd(sub + fee, Round2(tax));
    Round2OfCents(sub + fee + Round2(tax));
  }

  lemma FeeIsCents(sub: real)
    ensures IsCents(if sub > 0.0 then DeliveryFee else 0.0)
  {
    var fee := if sub > 0.0 then DeliveryFee else 0.0;
    assert fee * 100.0 == (if sub > 0.0 then 4000 else 0) as real;
  }

  /** With a subtotal that is not a whole number of hundredths the stored
      amounts need not add up: a single line of 0.0049 is stored as
      subtotal 0, fee 40, tax 0 and total 40.01. */
  lemma StoredAmountsNeedNotAddUp()
    ensures var item := SliceMenuItem("x", "r", "n", "d", 0.0049, "c", true, true);
      var t := CalculateTotals([SliceItem(item, 1, [], None)]);
      && t.subtotal == 0.0 && t.deliveryFee == 40.0 && t.taxes == 0.0 && t.total == 40.01
      && t.total != Round2(t.subtotal + t.deliveryFee + t.taxes)
  {
    var item := SliceMenuItem("x", "r", "n", "d", 0.0049, "c", true, true);
    var items := [SliceItem(item, 1, [], None)];
    assert items[..0] == [];
    assert RawSubtotal(items) == 0.0049;
    Round2OfCents(40.0);
  }

  /** The amounts the slice's tests pin: two units at 299 come to a
      subtotal of 598, the fee of 40, a tax of 29.9 and a total of 667.9;
      a second add of one unit makes the quantity 3; a quantity of 5 comes
      to 1495; removing the line or clearing the cart brings every amount
      back to 0. */
  lemma PinnedAmounts()
    ensures var pizza := SliceMenuItem("1", "restaurant1", "Test Pizza", "Delicious test pizza", 299.0, "Pizza", true, true);
      var line := SliceItem(pizza, 2, [], None);
      var s := AddItem(InitialState, line);
      && s.items == [line] && s.subtotal == 598.0 && s.deliveryFee == 40.0
      && s.taxes == 29.9 && s.total == 667.9
      && AddItem(s, line.(quantity := 1)).items[0].quantity == 3
      && UpdateQuantity(s, "1", 5).subtotal == 1495.0
      && RemoveItem(s, "1").items == [] && RemoveItem(s, "1").subtotal == 0.0
      && UpdateQuantity(s, "1", 0).items == []
      && ClearCart(s) == InitialState
  {
    var pizza := SliceMenuItem("1", "restaurant1", "Test Pizza", "Delicious test pizza", 299.0, "Pizza", true, true);
    var line := SliceItem(pizza, 2, [], None);
    assert [line][..0] == [];
    assert RawSubtotal([line]) == 598.0;
    Round2OfCents(598.0);
    Round2OfCents(29.9);
    Round2OfCents(667.9);
    var five := [line.(quantity := 5)];
    assert five[..0] == [];
    assert RawSubtotal(five) == 1495.0;
    Round2OfCents(1495.0);
  }
}

=== FILE: categories.dfy ===
/** The menu categories of `src/services/categoryService.ts`: one shared
    collection partitioned by `restaurantId`, listed in display order. */
module Categories {
  import opened Common

  datatype CategoryDoc = CategoryDoc(
    restaurantId: string,
    name: string,
    description: Option<string>,
    displayOrder: int,
    createdAt: int,
    updatedAt: int)

  type Category = Doc<CategoryDoc>
  type CategoryStore = map<string, CategoryDoc>

  /** The argument of `addCategory`. */
  datatype NewCategory = NewCategory(
    restaurantId: string,
    name: string,
    description: Option<string>,
    displayOrder: int)

  /** `addCategory`: stores the fields as given, both timestamps `now`,
      under the id the store assigns. */
  function AddCategory(store: CategoryStore, c: NewCategory, id: string, now: int)
    : (r: (CategoryStore, Category))
    ensures r.0.Keys == store.Keys + {id}
    ensures OthersUnchanged(store, r.0, id)
    ensures r.1.id == id && r.1.data == r.0[id]
    ensures var d := r.0[id];
      && d.restaurantId == c.restaurantId && d.name == c.name
      && d.description == c.description && d.displayOrder == c.displayOrder
      && d.createdAt == now && d.updatedAt == now
  {
    var d := CategoryDoc(c.restaurantId, c.name, c.description, c.displayOrder, now, now);
    (store[id := d], Doc(id, d))
  }

  /** `c` is a stored category of the restaurant, read back with its id. */
  predicate Listed(store: CategoryStore, restaurantId: string, c: Category)
  {
    c.id in store && c.data == store[c.id] && c.data.restaurantId == restaurantId
  }

  function DisplayOrder(c: Category): int
  {
    c.data.displayOrder
  }

  /** `getCategoriesByRestaurant`: exactly the restaurant's categories, each
      once, in ascending display order (ties in the order the store listed
      them). */
  method GetCategoriesByRestaurant(store: CategoryStore, restaurantId: string) returns (cats: seq<Category>)
    ensures forall c :: c in cats <==> Listed(store, restaurantId, c)
    ensures forall i, j :: 0 <= i < j < |cats| ==> cats[i].data.displayOrder <= cats[j].data.displayOrder
    ensures forall c :: multiset(cats)[c] == (if Listed(store, restaurantId, c) then 1 else 0)
  {
    var found := Query(store, (d: CategoryDoc) => d.restaurantId == restaurantId);
    cats := SortBy(found, DisplayOrder);
    assert forall c :: c in cats <==> c in multiset(found);
  }

  /** The argument of `updateCategory`: every key it carries is written as
      it is, with no filtering; `None` is a key it does not carry, and a
      `description` of `Some(None)` is that key carried as `undefined`. */
  datatype CategoryPatch = CategoryPatch(
    restaurantId: Option<string>,
    name: Option<string>,
    description: Option<Option<string>>,
    displayOrder: Option<int>,
    createdAt: Option<int>)

  function Over<T>(update: Option<T>, current: T): T
  {
    if update.Some? then update.value else current
  }

  /** `updateCategory`: writes every carried key and refreshes `updatedAt`;
      a missing category is an error, and so is a key carried as
      `undefined`, a value the document store refuses to write. */
  function UpdateCategory(store: CategoryStore, id: string, patch: CategoryPatch, now: int)
    : (r: Result<CategoryStore>)
    ensures r.Err? <==> id !in store || patch.description == Some(None)
    ensures r.Err? ==> r.msg == "Failed to update category"
    ensures r.Ok? ==> r.value.Keys == store.Keys && OthersUnchanged(store, r.value, id)
    ensures r.Ok? ==> var d, e := store[id], r.value[id];
      && (patch.name.Some? ==> e.name == patch.name.value)
      && (patch.name.None? ==> e.name == d.name)
      && (patch.description.Some? ==> e.description == patch.description.value)
      && (patch.description.None? ==> e.description == d.description)
      && (patch.displayOrder.Some? ==> e.displayOrder == patch.displayOrder.value)
      && (patch.displayOrder.None? ==> e.displayOrder == d.displayOrder)
      && (patch.restaurantId.None? ==> e.restaurantId == d.restaurantId)
      && (patch.restaurantId.Some? ==> e.restaurantId == patch.restaurantId.value)
      && (patch.createdAt.None? ==> e.createdAt == d.createdAt)
      && (patch.createdAt.Some? ==> e.createdAt == patch.createdAt.value)
      && e.updatedAt == now
  {
    if id !in store || patch.description == Some(None) then Err("Failed to update category")
    else
      var d := store[id];
      Ok(store[id := d.(restaurantId := Over(patch.restaurantId, d.restaurantId),
                        name := Over(patch.name, d.name),
                        description := Over(patch.description, d.description),
                        displayOrder := Over(patch.displayOrder, d.displayOrder),
                        createdAt := Over(patch.createdAt, d.createdAt),
                        updatedAt := now)])
  }

  /** An update that carries no key only refreshes `updatedAt`. */
  lemma EmptyCategoryPatchTouchesOnlyTimestamp(store: CategoryStore, id: string, now: int)
    requires id in store
    ensures UpdateCategory(store, id, CategoryPatch(None, None, None, None, None), now)
         == Ok(store[id := store[id].(updatedAt := now)])
  {
  }

  /** `deleteCategory`: removes that one category; menu items that name it
      keep their category text. */
  function DeleteCategory(store: CategoryStore, id: string): (r: CategoryStore)
    ensures id !in r
    ensures OthersUnchanged(store, r, id)
  {
    DeleteDoc(store, id)
  }
}

=== FILE: checkout.dfy ===
/** Placing an order from the cart, as `src/pages/customer/Checkout.tsx`
    does it: the customer's details are checked, the cart's lines become
    the order's items, the order is stored, and only then is the cart
    emptied. */
module Checkout {
  import opened Common
  import opened CartContext
  import Orders

  datatype CustomerDetails = CustomerDetails(name: string, email: string, phone: string, address: string)

  datatype PaymentChoice = PayByCard | PayByUpi | PayInCash

  /** Everything the checkout form holds. */
  datatype CheckoutForm = CheckoutForm(
    details: CustomerDetails,
    payment: PaymentChoice,
    specialInstructions: string)

  /** What storing the order answers: the new order's id, or a failure. */
  datatype StoreOutcome = Stored(id: string) | StoreFailed

  /** The page after a submit: the cart, the order collection, the error
      shown and where the page navigates to, if anywhere. */
  datatype Submitted = Submitted(
    cart: CartState,
    orders: Orders.OrderStore,
    error: Option<string>,
    navigateTo: Option<string>)

  /** The cart lines as the order's items: name, quantity and unit price,
      in the same order. */
  function OrderLines(items: seq<CartItem>): (r: seq<Orders.OrderItem>)
    ensures |r| == |items|
    ensures forall i :: 0 <= i < |items| ==>
      r[i] == Orders.OrderItem(items[i].menuItem.data.name, items[i].quantity, items[i].menuItem.data.price)
  {
    seq(|items|, i requires 0 <= i < |items| =>
      Orders.OrderItem(items[i].menuItem.data.name, items[i].quantity, items[i].menuItem.data.price))
  }

  /** The sum of price times quantity over an order's items. */
  function LinesTotal(lines: seq<Orders.OrderItem>): real
  {
    if |lines| == 0 then 0.0
    else LinesTotal(lines[..|lines| - 1]) + lines[|lines| - 1].price * lines[|lines| - 1].quantity as real
  }

  /** The stored items reproduce the cart's subtotal. */
  lemma {:induction false} OrderLinesSubtotal(items: seq<CartItem>)
    ensures LinesTotal(OrderLines(items)) == GetSubtotal(items)
    decreases |items|
  {
    if |items| > 0 {
      var n := |items| - 1;
      assert OrderLines(items)[..n] == OrderLines(items[..n]);
      OrderLinesSubtotal(items[..n]);
    }
  }

  predicate DetailsFilled(d: CustomerDetails)
  {
    d.name != "" && d.email != "" && d.phone != ""
  }

  /** `handleSubmit`. `subdomain` is the storefront's route segment;
      `outcome` is what storing the order answers. */
  function HandleSubmit(cart: CartState, form: CheckoutForm, orders: Orders.OrderStore,
                        outcome: StoreOutcome, now: int, subdomain: string): (r: Submitted)
    ensures !DetailsFilled(form.details) ==>
      r == Submitted(cart, orders, Some("Please fill in all customer details"), None)
    ensures DetailsFilled(form.details) && !(Truthy(cart.restaurantId) && Truthy(cart.restaurantName)) ==>
      r == Submitted(cart, orders, Some("Invalid cart state"), None)
    ensures DetailsFilled(form.details) && Truthy(cart.restaurantId) && Truthy(cart.restaurantName)
            && outcome.StoreFailed? ==>
      r == Submitted(cart, orders, Some("Failed to place order. Please try again."), None)
    ensures r.error.None? <==>
      DetailsFilled(form.details) && Truthy(cart.restaurantId) && Truthy(cart.restaurantName) && outcome.Stored?
    ensures r.error.None? ==> var id := outcome.id;
      && r.cart == InitialState
      && r.orders.Keys == orders.Keys + {id}
      && OthersUnchanged(orders, r.orders, id)
      && r.orders[id].restaurantId == cart.restaurantId.value
      && r.orders[id].status == Orders.Open
      && r.orders[id].customerName == form.details.name
      && r.orders[id].customerEmail == Some(form.details.email)
      && r.orders[id].customerPhone == Some(form.details.phone)
      && r.orders[id].items == OrderLines(cart.items)
      && r.orders[id].total == GetTotal(cart.items)
      && r.navigateTo == Some("/" + subdomain + "/order-confirmation/" + id)
  {
    var d := form.details;
    if !DetailsFilled(d) then Submitted(cart, orders, Some("Please fill in all customer details"), None)
    else if !(Truthy(cart.restaurantId) && Truthy(cart.restaurantName)) then
      Submitted(cart, orders, Some("Invalid cart state"), None)
    else
      var order := Orders.NewOrder(cart.restaurantId.value, Orders.Open, d.name, Some(d.email), Some(d.phone),
                                   OrderLines(cart.items), GetTotal(cart.items));
      match outcome
      case StoreFailed => Submitted(cart, orders, Some("Failed to place order. Please try again."), None)
      case Stored(id) =>
        var (orders', placed) := Orders.CreateOrder(orders, order, id, now);
        Submitted(Reduce(cart, ClearCart), orders', None, Some("/" + subdomain + "/order-confirmation/" + placed.id))
  }

  /** The address, the payment choice and the special instructions never
      reach the order: two forms with the same name, email and phone place
      the same order. */
  lemma OrderIgnoresAddressAndPayment(cart: CartState, f1: CheckoutForm, f2: CheckoutForm,
                                      orders: Orders.OrderStore, outcome: StoreOutcome, now: int, subdomain: string)
    requires f1.details.name == f2.details.name && f1.details.email == f2.details.email
    requires f1.details.phone == f2.details.phone
    ensures HandleSubmit(cart, f1, orders, outcome, now, subdomain) == HandleSubmit(cart, f2, orders, outcome, now, subdomain)
  {
  }

  /** A placed order's total is what its own items price at: their sum,
      plus five per cent tax, plus the delivery fee of a non-empty cart. */
  lemma PlacedTotalMatchesItems(cart: CartState, form: CheckoutForm, orders: Orders.OrderStore,
                                id: string, now: int, subdomain: string)
    requires HandleSubmit(cart, form, orders, Stored(id), now, subdomain).error.None?
    ensures var o := HandleSubmit(cart, form, orders, Stored(id), now, subdomain).orders[id];
      o.total == LinesTotal(o.items) * 1.05 + (if |o.items| > 0 then 5.0 else 0.0)
  {
    OrderLinesSubtotal(cart.items);
  }

  /** What the page shows: an empty cart sends the customer back to the
      menu and renders nothing; otherwise the form. */
  datatype CheckoutView = RedirectToMenu(path: string) | CheckoutPage

  function View(cart: CartState, subdomain: string): (r: CheckoutView)
    ensures r.RedirectToMenu? <==> |cart.items| == 0
    ensures r.RedirectToMenu? ==> r.path == "/" + subdomain + "/menu"
  {
    if |cart.items| == 0 then RedirectToMenu("/" + subdomain + "/menu") else CheckoutPage
  }
}

=== FILE: common.dfy ===
/** Helpers shared by the whole model: optional values and thrown errors,
    the JavaScript string operations the application relies on (`trim`,
    ASCII `toLowerCase`, `includes`), `toFixed(2)` rounding of exact money
    amounts, a sort by an integer key, and the listing of a
    document store. */
module Common {

  /** A value that may be `null` or `undefined` in the source. */
  datatype Option<+T> = None | Some(value: T)

  /** The outcome of an operation that either returns a value or throws
      `new Error(msg)`. */
  datatype Result<+T> = Ok(value: T) | Err(msg: string)

  /** JavaScript truthiness of a nullable string: `null`, `undefined` and
      the empty string are all falsy. */
  predicate Truthy(s: Option<string>)
  {
    s.Some? && s.value != ""
  }

  // ---------------------------------------------------------------------
  // Characters and strings
  // ---------------------------------------------------------------------

  /** The characters matched by the regular-expression class `\s` and
      stripped by `String.prototype.trim` (ECMAScript WhiteSpace and
      LineTerminator). */
  predicate IsSpace(c: char)
  {
    || c == ' ' || c == '\t' || c == '\n' || c == '\U{B}' || c == '\U{C}' || c == '\r'
    || c == '\U{A0}' || c == '\U{1680}' || ('\U{2000}' <= c <= '\U{200A}')
    || c == '\U{2028}' || c == '\U{2029}' || c == '\U{202F}' || c == '\U{205F}'
    || c == '\U{3000}' || c == '\U{FEFF}'
  }

  /** Every character of `s` is white space (in particular, `s` may be empty). */
  predicate Blank(s: string)
  {
    forall i :: 0 <= i < |s| ==> IsSpace(s[i])
  }

  function TrimStart(s: string): (r: string)
    ensures |r| <= |s| && r == s[|s| - |r|..]
    ensures |r| > 0 ==> !IsSpace(r[0])
  {
    if |s| > 0 && IsSpace(s[0]) then TrimStart(s[1..]) else s
  }

  function TrimEnd(s: string): (r: string)
    ensures |r| <= |s| && r == s[..|r|]
    ensures |r| > 0 ==> !IsSpace(r[|r| - 1])
  {
    if |s| > 0 && IsSpace(s[|s| - 1]) then TrimEnd(s[..|s| - 1]) else s
  }

  /** `String.prototype.trim`. */
  function Trim(s: string): string
  {
    TrimEnd(TrimStart(s))
  }

  /** `!s.trim()` holds exactly for strings made only of white space. */
  lemma {:induction false} TrimEmptyIffBlank(s: string)
    ensures Trim(s) == "" <==> Blank(s)
  {
    TrimStartBlank(s);
    TrimEndBlank(TrimStart(s));
    if Blank(TrimStart(s)) && !Blank(s) {
      var i :| 0 <= i < |s| && !IsSpace(s[i]);
      TrimStartKeepsFirstNonSpace(s, i);
    }
  }

  lemma {:induction false} TrimStartBlank(s: string)
    ensures Blank(s) ==> TrimStart(s) == ""
    decreases |s|
  {
    if |s| > 0 && IsSpace(s[0]) {
      TrimStartBlank(s[1..]);
      if Blank(s) {
        assert Blank(s[1..]) by {
          forall i | 0 <= i < |s[1..]| ensures IsSpace(s[1..][i]) {
            assert s[1..][i] == s[i + 1];
          }
        }
      }
    }
  }

  lemma {:induction false} TrimStartKeepsFirstNonSpace(s: string, i: int)
    requires 0 <= i < |s| && !IsSpace(s[i])
    ensures |TrimStart(s)| > 0
    decreases |s|
  {
    if |s| > 0 && IsSpace(s[0]) {
      TrimStartKeepsFirstNonSpace(s[1..], i - 1);
    }
  }

  lemma {:induction false} TrimEndBlank(s: string)
    ensures TrimEnd(s) == "" <==> Blank(s)
    decreases |s|
  {
    if |s| > 0 && IsSpace(s[|s| - 1]) {
      var p := s[..|s| - 1];
      TrimEndBlank(p);
      assert Blank(s) <==> Blank(p) by {
        if Blank(p) {
          forall i | 0 <= i < |s| ensures IsSpace(s[i]) {
            if i < |p| { assert s[i] == p[i]; }
          }
        }
        if Blank(s) {
          forall i | 0 <= i < |p| ensures IsSpace(p[i]) {
            assert p[i] == s[i];
          }
        }
      }
    } else if |s| > 0 {
      assert !IsSpace(s[|s| - 1]);
    }
  }

  /** ASCII `toLowerCase` of one character. */
  function LowerChar(c: char): char
  {
    if 'A' <= c <= 'Z' then (c as int + 32) as char else c
  }

  /** `String.prototype.toLowerCase`, over the ASCII letters. */
  function Lower(s: string): (r: string)
    ensures |r| == |s|
    ensures forall i :: 0 <= i < |s| ==> r[i] == LowerChar(s[i])
  {
    seq(|s|, i requires 0 <= i < |s| => LowerChar(s[i]))
  }

  /** Lower-casing twice changes nothing more than lower-casing once. */
  lemma LowerIdempotent(s: string)
    ensures Lower(Lower(s)) == Lower(s)
  {
  }

  /** `hay.includes(needle)`: `needle` occurs somewhere inside `hay`. */
  predicate Contains(hay: string, needle: string)
  {
    exists i | 0 <= i <= |hay| - |needle| :: OccursAt(hay, needle, i)
  }

  /** `needle` occurs in `hay` starting at index `i`. */
  predicate OccursAt(hay: string, needle: string, i: int)
  {
    0 <= i && i + |needle| <= |hay| && hay[i..i + |needle|] == needle
  }

  /** Every string includes the empty string. */
  lemma ContainsEmpty(hay: string)
    ensures Contains(hay, "")
  {
    assert OccursAt(hay, "", 0);
  }

  /** The decimal digits of a natural number, as `String(n)` writes them. */
  function NatToString(n: nat): (r: string)
    ensures |r| > 0
    ensures forall i :: 0 <= i < |r| ==> '0' <= r[i] <= '9'
  {
    var d := ['0' + (n % 10) as char];
    if n < 10 then d else NatToString(n / 10) + d
  }

  /** The number a string of decimal digits denotes. */
  function DigitsValue(s: string): (v: nat)
    requires forall i :: 0 <= i < |s| ==> '0' <= s[i] <= '9'
  {
    if |s| == 0 then 0
    else DigitsValue(s[..|s| - 1]) * 10 + (s[|s| - 1] as int - '0' as int)
  }

  /** Reading the rendering back gives the number. */
  lemma {:induction false} NatToStringParses(n: nat)
    ensures DigitsValue(NatToString(n)) == n
    decreases n
  {
    var r := NatToString(n);
    if n >= 10 {
      var p := NatToString(n / 10);
      assert r[..|r| - 1] == p;
      NatToStringParses(n / 10);
    }
  }

  /** Different numbers render differently. */
  lemma NatToStringInjective(m: nat, n: nat)
    ensures NatToString(m) == NatToString(n) ==> m == n
  {
    NatToStringParses(m);
    NatToStringParses(n);
  }

  // ---------------------------------------------------------------------
  // Money
  // ---------------------------------------------------------------------

  /** `x` is a whole number of hundredths. */
  predicate IsCents(x: real)
  {
    (x * 100.0).Floor as real == x * 100.0
  }

  /** `parseFloat(x.toFixed(2))` on an exact amount: the nearest multiple
      of 0.01, halves rounded away from zero. */
  function Round2(x: real): (r: real)
    ensures IsCents(r)
    ensures x - 0.005 <= r <= x + 0.005
    ensures x >= 0.0 ==> r >= 0.0
    ensures x >= 0.0 ==> x - 0.005 < r
    ensures x < 0.0 ==> r < x + 0.005
  {
    if x >= 0.0 then RoundUp(x)
    else
      var m := RoundUp(-x);
      NegatedCents(m);
      -m
  }

  /** An exact half hundredth rounds away from zero, as `toFixed(2)`
      rounds it. */
  lemma HalfCentRoundsAway()
    ensures Round2(0.005) == 0.01 && Round2(-0.005) == -0.01
  {
    assert (0.005 * 100.0 + 0.5).Floor == 1;
  }

  /** Rounding a non-negative amount to hundredths, halves upwards. */
  function RoundUp(y: real): (r: real)
    requires y >= 0.0
    ensures IsCents(r) && r >= 0.0
    ensures y - 0.005 < r <= y + 0.005
  {
    var n := (y * 100.0 + 0.5).Floor;
    assert n as real <= y * 100.0 + 0.5 < n as real + 1.0;
    HundredthsAreCents(n);
    n as real / 100.0
  }

  lemma HundredthsAreCents(n: int)
    ensures IsCents(n as real / 100.0)
  {
    assert (n as real / 100.0) * 100.0 == n as real;
  }

  lemma NegatedCents(m: real)
    requires IsCents(m)
    ensures IsCents(-m)
  {
    var n := (m * 100.0).Floor;
    assert (-m) * 100.0 == (-n) as real;
  }

  /** An amount that already is a whole number of hundredths is left as it is. */
  lemma Round2OfCents(x: real)
    requires IsCents(x)
    ensures Round2(x) == x
  {
    var n := (x * 100.0).Floor;
    if x >= 0.0 {
      assert (x * 100.0 + 0.5).Floor == n;
    } else {
      assert ((-x) * 100.0 + 0.5).Floor == -n;
    }
  }

  /** Rounding commutes with adding a non-negative whole number of hundredths. */
  lemma Round2ShiftCents(x: real, c: real)
    requires x >= 0.0 && c >= 0.0 && IsCents(c)
    ensures Round2(x + c) == Round2(x) + c
  {
    var m := (c * 100.0).Floor;
    assert (x + c) * 100.0 + 0.5 == (x * 100.0 + 0.5) + m as real;
    assert ((x + c) * 100.0 + 0.5).Floor == (x * 100.0 + 0.5).Floor + m;
  }

  // ---------------------------------------------------------------------
  // Sorting
  // ---------------------------------------------------------------------

  /** `s` is in ascending order of `key`. */
  predicate SortedBy<T>(s: seq<T>, key: T -> int)
  {
    forall i, j :: 0 <= i < j < |s| ==> key(s[i]) <= key(s[j])
  }

  /** Inserts `x` after every element whose key is not greater than its own,
      so that equal keys keep their arrival order. */
  function InsertBy<T>(x: T, s: seq<T>, key: T -> int): (r: seq<T>)
    requires SortedBy(s, key)
    ensures SortedBy(r, key)
    ensures multiset(r) == multiset(s) + multiset{x}
    ensures |r| == |s| + 1
  {
    if |s| == 0 then [x]
    else if key(x) < key(s[0]) then
      SortedLowerBound(s, key, key(x));
      ConsKeepsSorted(x, s, key, multiset(s));
      [x] + s
    else
      var tail := InsertBy(x, s[1..], key);
      assert s == [s[0]] + s[1..];
      SortedSuffix(s, key);
      SortedLowerBound(s[1..], key, key(s[0]));
      ConsKeepsSorted(s[0], tail, key, multiset(s[1..]) + multiset{x});
      [s[0]] + tail
  }

  /** Every element of a sorted list is at least its first element's key. */
  lemma SortedLowerBound<T>(s: seq<T>, key: T -> int, lo: int)
    requires SortedBy(s, key) && (|s| > 0 ==> lo <= key(s[0]))
    ensures forall y :: y in multiset(s) ==> lo <= key(y)
  {
    forall y | y in multiset(s) ensures lo <= key(y) {
      assert y in s;
      var k :| 0 <= k < |s| && s[k] == y;
    }
  }

  lemma SortedSuffix<T>(s: seq<T>, key: T -> int)
    requires SortedBy(s, key) && |s| > 0
    ensures SortedBy(s[1..], key)
  {
    forall i, j | 0 <= i < j < |s[1..]| ensures key(s[1..][i]) <= key(s[1..][j]) {
      assert s[1..][i] == s[i + 1] && s[1..][j] == s[j + 1];
    }
  }

  /** A sorted list stays sorted with an element in front whose key is at
      most every key in the list. */
  lemma ConsKeepsSorted<T>(h: T, t: seq<T>, key: T -> int, pool: multiset<T>)
    requires SortedBy(t, key) && multiset(t) == pool
    requires forall y :: y in pool ==> key(h) <= key(y)
    ensures SortedBy([h] + t, key)
  {
    var r := [h] + t;
    forall i, j | 0 <= i < j < |r| ensures key(r[i]) <= key(r[j]) {
      assert r[j] == t[j - 1];
      if i == 0 {
        assert t[j - 1] in multiset(t);
      } else {
        assert r[i] == t[i - 1];
      }
    }
  }

  /** `Array.prototype.sort` with a comparator `key(a) - key(b)`: an
      insertion sort into ascending order of `key`. The contract states the
      order and the permutation; the relative order of equal keys, which
      the engine's sort also keeps, is left open. */
  function SortBy<T>(s: seq<T>, key: T -> int): (r: seq<T>)
    ensures SortedBy(r, key)
    ensures multiset(r) == multiset(s)
    ensures |r| == |s|
  {
    if |s| == 0 then []
    else
      assert s == s[..|s| - 1] + [s[|s| - 1]];
      InsertBy(s[|s| - 1], SortBy(s[..|s| - 1], key), key)
  }

  // ---------------------------------------------------------------------
  // Document stores
  // ---------------------------------------------------------------------

  /** A document read back from a store: its key together with its data,
      as `{ id: doc.id, ...doc.data() }` builds it. */
  datatype Doc<+V> = Doc(id: string, data: V)

  /** Entries other than `id` are the same in both stores. */
  ghost predicate OthersUnchanged<V>(before: map<string, V>, after: map<string, V>, id: string)
  {
    forall k :: k != id ==> (k in after <==> k in before) && (k in before ==> after[k] == before[k])
  }

  /** `deleteDoc`: the document under `id` is gone, every other one is kept,
      and a missing document is not an error. */
  function DeleteDoc<V>(store: map<string, V>, id: string): (r: map<string, V>)
    ensures id !in r
    ensures OthersUnchanged(store, r, id)
  {
    store - {id}
  }

  /** The documents of `store` whose data satisfy `keep`, as a query
      snapshot lists them: each matching document exactly once, in an order
      the store chooses. */
  method Query<V>(store: map<string, V>, keep: V -> bool) returns (docs: seq<Doc<V>>)
    ensures forall d :: d in docs <==> d.id in store && d.data == store[d.id] && keep(d.data)
    ensures forall i, j :: 0 <= i < j < |docs| ==> docs[i].id != docs[j].id
    ensures forall d :: multiset(docs)[d] == (if d.id in store && d.data == store[d.id] && keep(d.data) then 1 else 0)
  {
    docs := [];
    var rest := store.Keys;
    while rest != {}
      invariant rest <= store.Keys
      invariant forall d :: d in docs <==>
        d.id in store && d.id !in rest && d.data == store[d.id] && keep(d.data)
      invariant forall i, j :: 0 <= i < j < |docs| ==> docs[i].id != docs[j].id
      invariant forall d :: multiset(docs)[d] == (if d.id in store && d.id !in rest && d.data == store[d.id] && keep(d.data) then 1 else 0)
      decreases rest
    {
      var k :| k in rest;
      if keep(store[k]) {
        docs := docs + [Doc(k, store[k])];
      }
      rest := rest - {k};
    }
  }
}

=== FILE: customer_auth_page.dfy ===
/** The customer sign-in / sign-up page of
    `src/pages/customer/CustomerAuth.tsx`: one form in two modes, checked
    in a fixed order before the identity provider is called. */
module CustomerAuthPage {
  import opened Common

  datatype AuthForm = AuthForm(email: string, password: string, name: string, phone: string)

  /** The page's own error and the one the auth context keeps; `None` is
      `null`. */
  datatype AuthPage = AuthPage(isLogin: bool, form: AuthForm, localError: Option<string>, contextError: Option<string>)

  const InitialPage := AuthPage(true, AuthForm("", "", "", ""), None, None)

  /** The call made to the auth context, by mode. */
  datatype AuthCall = SignIn(email: string, password: string) | SignUp(email: string, password: string, name: string, phone: string)

  /** What that call answers: success, or a thrown error whose `message`
      may be missing. */
  datatype AuthReply = Accepted | Rejected(message: Option<string>)

  /** The form checks, first failure reported. */
  function Validate(isLogin: bool, f: AuthForm): (r: Option<string>)
    ensures f.email == "" || f.password == "" ==> r == Some("Email and password are required")
    ensures f.email != "" && f.password != "" && !isLogin && (f.name == "" || f.phone == "") ==>
              r == Some("Name and phone are required for signup")
    ensures f.email != "" && f.password != "" && (isLogin || (f.name != "" && f.phone != "")) && |f.password| < 6 ==>
              r == Some("Password must be at least 6 characters")
    ensures r.None? <==> f.email != "" && |f.password| >= 6 && (isLogin || (f.name != "" && f.phone != ""))
  {
    if f.email == "" || f.password == "" then Some("Email and password are required")
    else if !isLogin && (f.name == "" || f.phone == "") then Some("Name and phone are required for signup")
    else if |f.password| < 6 then Some("Password must be at least 6 characters")
    else None
  }

  /** `handleSubmit`: both errors are cleared; a failed check is shown
      without any call; otherwise the mode's call is made, and a rejection
      shows its message on the page and in the context alike. */
  function HandleSubmit(p: AuthPage, reply: AuthReply): (r: (AuthPage, Option<AuthCall>))
    ensures r.1.Some? <==> Validate(p.isLogin, p.form).None?
    ensures r.1.Some? ==> (r.1.value.SignIn? <==> p.isLogin)
    ensures r.1.Some? ==> r.1.value.email == p.form.email && r.1.value.password == p.form.password
    ensures r.1.Some? && r.1.value.SignUp? ==> r.1.value.name == p.form.name && r.1.value.phone == p.form.phone
    ensures r.1.None? ==> r.0.localError == Validate(p.isLogin, p.form) && r.0.contextError.None?
    ensures r.1.Some? && reply.Accepted? ==> r.0.localError.None? && r.0.contextError.None?
    ensures r.1.Some? && reply.Rejected? ==> r.0.localError == reply.message && r.0.contextError == reply.message
    ensures r.0.isLogin == p.isLogin && r.0.form == p.form
  {
    var cleared := p.(localError := None, contextError := None);
    var check := Validate(p.isLogin, p.form);
    if check.Some? then (cleared.(localError := check), None)
    else
      var f := p.form;
      var call := if p.isLogin then SignIn(f.email, f.password) else SignUp(f.email, f.password, f.name, f.phone);
      match reply
      case Accepted => (cleared, Some(call))
      case Rejected(message) => (cleared.(localError := message, contextError := message), Some(call))
  }

  /** A call reaches the provider only with an email, a password of at
      least six characters and, to sign up, a name and a phone. */
  lemma CallsOnlyWithCompleteForm(p: AuthPage, reply: AuthReply)
    requires HandleSubmit(p, reply).1.Some?
    ensures p.form.email != "" && |p.form.password| >= 6
    ensures HandleSubmit(p, reply).1.value.SignUp? ==> p.form.name != "" && p.form.phone != ""
  {
  }

  /** `toggleMode`: flips the mode and clears both errors; the fields stay. */
  function ToggleMode(p: AuthPage): (r: AuthPage)
    ensures r.isLogin != p.isLogin && r.form == p.form
    ensures r.localError.None? && r.contextError.None?
  {
    AuthPage(!p.isLogin, p.form, None, None)
  }

  /** `localError || error`: the page's error when it is a non-empty
      string, otherwise the context's. */
  function DisplayError(p: AuthPage): (r: Option<string>)
    ensures Truthy(p.localError) ==> r == p.localError
    ensures !Truthy(p.localError) ==> r == p.contextError
  {
    if Truthy(p.localError) then p.localError else p.contextError
  }

  /** After any submit the page shows exactly one message source: the
      failed check, the provider's message, or nothing. */
  lemma SubmitShowsOneError(p: AuthPage, reply: AuthReply)
    ensures var (q, call) := HandleSubmit(p, reply);
      && (call.None? ==> DisplayError(q) == Validate(p.isLogin, p.form))
      && (call.Some? && reply.Accepted? ==> DisplayError(q).None?)
      && (call.Some? && reply.Rejected? ==> DisplayError(q) == reply.message)
  {
  }

  /** Toggling twice restores the mode and leaves no error shown. */
  lemma ToggleTwice(p: AuthPage)
    ensures ToggleMode(ToggleMode(p)).isLogin == p.isLogin
    ensures DisplayError(ToggleMode(p)).None?
  {
  }
}

=== FILE: customer_auth_service.dfy ===
/** The saved addresses and payment methods of a customer profile, as
    `src/services/customerAuthService.ts` edits them: whole-list rewrites
    of one customer document that keep at most one entry marked default. */
module CustomerAuthService {
  import opened Common

  /** An entry of either list: its id, the default flag, and the rest. */
  datatype Saved<D> = Saved(id: string, isDefault: bool, details: D)

  /** `labelText` is the source's `label` (a reserved word here). */
  datatype AddressDetails = AddressDetails(
    labelText: string,
    street: string,
    apartment: Option<string>,
    city: string,
    state: string,
    zipCode: string,
    landmark: Option<string>)

  datatype PaymentKind = Card | Upi

  datatype PaymentDetails = PaymentDetails(
    kind: PaymentKind,
    labelText: string,
    stripePaymentMethodId: Option<string>)

  type SavedAddress = Saved<AddressDetails>
  type SavedPaymentMethod = Saved<PaymentDetails>

  // ---------------------------------------------------------------------
  // The default invariant
  // ---------------------------------------------------------------------

  /** No two positions of the list are both marked default. */
  predicate AtMostOneDefault<D>(l: seq<Saved<D>>)
  {
    forall i, j :: 0 <= i < |l| && 0 <= j < |l| && l[i].isDefault && l[j].isDefault ==> i == j
  }

  predicate HasDefault<D>(l: seq<Saved<D>>)
  {
    exists i :: 0 <= i < |l| && l[i].isDefault
  }

  /** A non-empty list has exactly one default entry; an empty one has none. */
  predicate ExactlyOneDefault<D>(l: seq<Saved<D>>)
  {
    AtMostOneDefault(l) && (|l| > 0 ==> HasDefault(l))
  }

  predicate DistinctIds<D>(l: seq<Saved<D>>)
  {
    forall i, j :: 0 <= i < j < |l| ==> l[i].id != l[j].id
  }

  // ---------------------------------------------------------------------
  // List edits shared by both lists
  // ---------------------------------------------------------------------

  /** Adding an entry: it becomes the default when asked to or when the list
      was empty; a new default clears every other flag; it goes last. */
  function AddEntry<D(==)>(list: seq<Saved<D>>, details: D, requestedDefault: bool, id: string)
    : (r: seq<Saved<D>>)
    ensures |r| == |list| + 1
    ensures r[|list|] == Saved(id, requestedDefault || |list| == 0, details)
    ensures r[|list|].isDefault ==> forall i :: 0 <= i < |list| ==> r[i] == list[i].(isDefault := false)
    ensures !r[|list|].isDefault ==> r[..|list|] == list
  {
    var isDefault := requestedDefault || |list| == 0;
    var kept := if isDefault then seq(|list|, i requires 0 <= i < |list| => list[i].(isDefault := false)) else list;
    kept + [Saved(id, isDefault, details)]
  }

  /** Adding keeps at most one default, and keeps exactly one in a list
      that had exactly one (or was empty). */
  lemma AddEntryKeepsDefault<D>(list: seq<Saved<D>>, details: D, requestedDefault: bool, id: string)
    ensures AtMostOneDefault(list) ==> AtMostOneDefault(AddEntry(list, details, requestedDefault, id))
    ensures ExactlyOneDefault(list) ==> ExactlyOneDefault(AddEntry(list, details, requestedDefault, id))
  {
    var r := AddEntry(list, details, requestedDefault, id);
    var n := |list|;
    if !r[n].isDefault {
      assert forall i :: 0 <= i < n ==> r[i] == list[i];
      if ExactlyOneDefault(list) {
        var k :| 0 <= k < n && list[k].isDefault;
        assert r[k].isDefault;
      }
    } else {
      assert r[n].isDefault;
    }
  }

  /** `filter((e) => e.id !== id)`. */
  function DeleteEntry<D(!new)>(list: seq<Saved<D>>, id: string): (r: seq<Saved<D>>)
    ensures |r| <= |list|
  {
    if |list| == 0 then []
    else (if list[0].id == id then [] else [list[0]]) + DeleteEntry(list[1..], id)
  }

  /** Deleting keeps exactly the entries with other ids. */
  lemma {:induction false} DeleteEntryMembers<D(!new)>(list: seq<Saved<D>>, id: string)
    ensures forall e :: e in DeleteEntry(list, id) <==> e in list && e.id != id
    decreases |list|
  {
    if |list| > 0 {
      DeleteEntryMembers(list[1..], id);
      assert list == [list[0]] + list[1..];
    }
  }

  /** Deleting distributes over concatenation: the kept entries stay in
      their order. */
  lemma {:induction false} DeleteEntryConcat<D(!new)>(a: seq<Saved<D>>, b: seq<Saved<D>>, id: string)
    ensures DeleteEntry(a + b, id) == DeleteEntry(a, id) + DeleteEntry(b, id)
    decreases |a|
  {
    if |a| > 0 {
      assert (a + b)[1..] == a[1..] + b;
      DeleteEntryConcat(a[1..], b, id);
    } else {
      assert a + b == b;
    }
  }

  /** Deleting an id no entry carries changes nothing. */
  lemma {:induction false} DeleteAbsentEntry<D(!new)>(list: seq<Saved<D>>, id: string)
    requires forall i :: 0 <= i < |list| ==> list[i].id != id
    ensures DeleteEntry(list, id) == list
    decreases |list|
  {
    if |list| > 0 {
      DeleteAbsentEntry(list[1..], id);
      assert list == [list[0]] + list[1..];
    }
  }

  /** Deleting keeps at most one default. */
  lemma {:induction false} DeleteEntryKeepsDefault<D(!new)>(list: seq<Saved<D>>, id: string)
    requires AtMostOneDefault(list)
    ensures AtMostOneDefault(DeleteEntry(list, id))
    decreases |list|
  {
    if |list| > 0 {
      var p := list[1..];
      AtMostOneDefaultTail(list);
      DeleteEntryKeepsDefault(p, id);
      var q := DeleteEntry(p, id);
      if list[0].id != id {
        if list[0].isDefault {
          TailHasNoDefault(list);
          DeleteEntryMembers(p, id);
        }
        ConsAtMostOneDefault(list[0], q);
      }
    }
  }

  lemma AtMostOneDefaultTail<D>(list: seq<Saved<D>>)
    requires |list| > 0 && AtMostOneDefault(list)
    ensures AtMostOneDefault(list[1..])
  {
    var p := list[1..];
    forall i, j | 0 <= i < |p| && 0 <= j < |p| && p[i].isDefault && p[j].isDefault
      ensures i == j
    {
      assert list[i + 1] == p[i] && list[j + 1] == p[j];
    }
  }

  /** Behind a default head no entry is a default. */
  lemma TailHasNoDefault<D>(list: seq<Saved<D>>)
    requires |list| > 0 && AtMostOneDefault(list) && list[0].isDefault
    ensures forall e :: e in list[1..] ==> !e.isDefault
  {
    forall e | e in list[1..] ensures !e.isDefault {
      var k :| 0 <= k < |list[1..]| && list[1..][k] == e;
      assert list[k + 1] == e;
    }
  }

  lemma ConsAtMostOneDefault<D>(h: Saved<D>, q: seq<Saved<D>>)
    requires AtMostOneDefault(q)
    requires h.isDefault ==> forall e :: e in q ==> !e.isDefault
    ensures AtMostOneDefault([h] + q)
  {
    var r := [h] + q;
    forall i, j | 0 <= i < |r| && 0 <= j < |r| && r[i].isDefault && r[j].isDefault
      ensures i == j
    {
      if i > 0 { assert r[i] == q[i - 1] && q[i - 1] in q; }
      if j > 0 { assert r[j] == q[j - 1] && q[j - 1] in q; }
    }
  }

  /** Neither an update that unsets the flag nor a delete re-marks another
      entry, so a list may be left without a default. */
  lemma DeletingTheDefaultLeavesNone<D(!new)>(d: D)
    ensures var l := [Saved("addr_1", true, d), Saved("addr_2", false, d)];
      ExactlyOneDefault(l) && !HasDefault(DeleteEntry(l, "addr_1"))
  {
    var l := [Saved("addr_1", true, d), Saved("addr_2", false, d)];
    assert l[1..] == [l[1]];
    assert l[1..][1..] == [];
    assert DeleteEntry(l, "addr_1") == [l[1]];
  }

  // ---------------------------------------------------------------------
  // Updating an address
  // ---------------------------------------------------------------------

  /** The argument of `updateSavedAddress`: `None` is a key the update does
      not carry; for the optional fields `Some(None)` is a key carried with
      the value `undefined`, which the spread copies into the entry. */
  datatype AddressPatch = AddressPatch(
    labelText: Option<string>,
    street: Option<string>,
    apartment: Option<Option<string>>,
    city: Option<string>,
    state: Option<string>,
    zipCode: Option<string>,
    landmark: Option<Option<string>>,
    isDefault: Option<bool>)

  function Over<T>(update: Option<T>, current: T): T
  {
    if update.Some? then update.value else current
  }

  /** `{ ...addr, ...updates }`. */
  function MergeAddress(a: SavedAddress, patch: AddressPatch): SavedAddress
  {
    Saved(a.id, Over(patch.isDefault, a.isDefault),
          AddressDetails(Over(patch.labelText, a.details.labelText), Over(patch.street, a.details.street),
                         Over(patch.apartment, a.details.apartment), Over(patch.city, a.details.city),
                         Over(patch.state, a.details.state), Over(patch.zipCode, a.details.zipCode),
                         Over(patch.landmark, a.details.landmark)))
  }

  /** The new value of one entry under `updateSavedAddress`. */
  function UpdateOne(a: SavedAddress, id: string, patch: AddressPatch): SavedAddress
  {
    if a.id == id then MergeAddress(a, patch)
    else if patch.isDefault == Some(true) && a.isDefault then a.(isDefault := false)
    else a
  }

  /** `updateSavedAddress` on the list: the entries with the id take the
      update; when the update marks its entry default, every other entry
      loses the flag; the length and order are kept. */
  function UpdateAddresses(list: seq<SavedAddress>, id: string, patch: AddressPatch): (r: seq<SavedAddress>)
    ensures |r| == |list|
    ensures forall i :: 0 <= i < |list| ==> r[i].id == list[i].id
    ensures forall i :: 0 <= i < |list| && list[i].id != id ==>
      r[i].details == list[i].details && (r[i].isDefault <==> list[i].isDefault && patch.isDefault != Some(true))
    ensures forall i :: 0 <= i < |list| && list[i].id == id ==>
      && r[i].isDefault == Over(patch.isDefault, list[i].isDefault)
      && r[i].details.labelText == Over(patch.labelText, list[i].details.labelText)
      && r[i].details.street == Over(patch.street, list[i].details.street)
      && r[i].details.city == Over(patch.city, list[i].details.city)
      && r[i].details.apartment == Over(patch.apartment, list[i].details.apartment)
      && r[i].details.state == Over(patch.state, list[i].details.state)
      && r[i].details.zipCode == Over(patch.zipCode, list[i].details.zipCode)
      && r[i].details.landmark == Over(patch.landmark, list[i].details.landmark)
  {
    seq(|list|, i requires 0 <= i < |list| => UpdateOne(list[i], id, patch))
  }

  /** The update carries an optional key with the value `undefined`. */
  predicate CarriesUndefined(patch: AddressPatch)
  {
    patch.apartment == Some(None) || patch.landmark == Some(None)
  }

  predicate HasId<D>(list: seq<Saved<D>>, id: string)
  {
    exists i :: 0 <= i < |list| && list[i].id == id
  }

  /** Updating keeps at most one default when ids are distinct. */
  lemma UpdateAddressesKeepsDefault(list: seq<SavedAddress>, id: string, patch: AddressPatch)
    requires DistinctIds(list) && AtMostOneDefault(list)
    ensures AtMostOneDefault(UpdateAddresses(list, id, patch))
  {
    var r := UpdateAddresses(list, id, patch);
    forall i, j | 0 <= i < |r| && 0 <= j < |r| && r[i].isDefault && r[j].isDefault
      ensures i == j
    {
      if patch.isDefault == Some(true) {
        assert list[i].id == id && list[j].id == id;
      } else {
        assert list[i].isDefault && list[j].isDefault;
      }
    }
  }

  /** Two entries that share an id are both marked default by an update
      that asks for it: the invariant depends on distinct ids, which the
      ids built from the clock do not guarantee for two additions within
      one millisecond. */
  lemma SharedIdBreaksDefault(d: AddressDetails)
    ensures var l := [Saved("addr_7", true, d), Saved("addr_7", false, d)];
      var patch := AddressPatch(None, None, None, None, None, None, None, Some(true));
      AtMostOneDefault(l) && !AtMostOneDefault(UpdateAddresses(l, "addr_7", patch))
  {
    var l := [Saved("addr_7", true, d), Saved("addr_7", false, d)];
    var patch := AddressPatch(None, None, None, None, None, None, None, Some(true));
    var r := UpdateAddresses(l, "addr_7", patch);
    assert r[0].isDefault && r[1].isDefault;
  }

  /** An update that marks an unknown id default clears every flag. */
  lemma UpdateUnknownIdClearsDefaults(list: seq<SavedAddress>, id: string, patch: AddressPatch)
    requires forall i :: 0 <= i < |list| ==> list[i].id != id
    requires patch.isDefault == Some(true)
    ensures !HasDefault(UpdateAddresses(list, id, patch))
  {
  }

  // ---------------------------------------------------------------------
  // The customer documents
  // ---------------------------------------------------------------------

  /** A customer document; a list field missing from it reads as empty. */
  datatype CustomerDoc = CustomerDoc(
    email: string,
    name: string,
    phone: string,
    savedAddresses: Option<seq<SavedAddress>>,
    savedPaymentMethods: Option<seq<SavedPaymentMethod>>,
    createdAt: int,
    updatedAt: int)

  type CustomerStore = map<string, CustomerDoc>

  /** `list || []`. */
  function OrEmpty<T>(list: Option<seq<T>>): (r: seq<T>)
    ensures list.None? ==> r == []
    ensures list.Some? ==> r == list.value
  {
    if list.Some? then list.value else []
  }

  function Addresses(c: CustomerDoc): seq<SavedAddress>
  {
    OrEmpty(c.savedAddresses)
  }

  function PaymentMethods(c: CustomerDoc): seq<SavedPaymentMethod>
  {
    OrEmpty(c.savedPaymentMethods)
  }

  /** Every list edit below rewrites one customer's document: the edited
      list and `updatedAt` change, nothing else in the store does. */
  ghost predicate RewritesOnly(store: CustomerStore, r: CustomerStore, customerId: string, now: int)
  {
    && customerId in store && r.Keys == store.Keys
    && OthersUnchanged(store, r, customerId)
    && r[customerId].email == store[customerId].email
    && r[customerId].name == store[customerId].name
    && r[customerId].phone == store[customerId].phone
    && r[customerId].createdAt == store[customerId].createdAt
    && r[customerId].updatedAt == now
  }

  /** `addSavedAddress`, with the clock's reading `now` naming the entry. */
  function AddSavedAddress(store: CustomerStore, customerId: string, details: AddressDetails,
                           requestedDefault: bool, now: nat): (r: Result<CustomerStore>)
    ensures r.Err? <==> customerId !in store
    ensures r.Err? ==> r.msg == "Failed to add address"
    ensures r.Ok? ==> RewritesOnly(store, r.value, customerId, now)
    ensures r.Ok? ==> r.value[customerId].savedPaymentMethods == store[customerId].savedPaymentMethods
    ensures r.Ok? ==> var before, after := Addresses(store[customerId]), Addresses(r.value[customerId]);
      && |after| == |before| + 1
      && after[|before|] == Saved("addr_" + NatToString(now), requestedDefault || |before| == 0, details)
      && after == AddEntry(before, details, requestedDefault, "addr_" + NatToString(now))
      && (ExactlyOneDefault(before) ==> ExactlyOneDefault(after))
  {
    if customerId !in store then Err("Failed to add address")
    else
      var c := store[customerId];
      var list := AddEntry(Addresses(c), details, requestedDefault, "addr_" + NatToString(now));
      AddEntryKeepsDefault(Addresses(c), details, requestedDefault, "addr_" + NatToString(now));
      Ok(store[customerId := c.(savedAddresses := Some(list), updatedAt := now)])
  }

  /** `updateSavedAddress`. */
  function UpdateSavedAddress(store: CustomerStore, customerId: string, addressId: string,
                              patch: AddressPatch, now: int): (r: Result<CustomerStore>)
    ensures r.Err? <==> (customerId !in store
                         || (CarriesUndefined(patch) && HasId(Addresses(store[customerId]), addressId)))
    ensures r.Err? ==> r.msg == "Failed to update address"
    ensures r.Ok? ==> RewritesOnly(store, r.value, customerId, now)
    ensures r.Ok? ==> r.value[customerId].savedPaymentMethods == store[customerId].savedPaymentMethods
    ensures r.Ok? ==> var before, after := Addresses(store[customerId]), Addresses(r.value[customerId]);
      && after == UpdateAddresses(before, addressId, patch)
      && (DistinctIds(before) && AtMostOneDefault(before) ==> AtMostOneDefault(after))
  {
    if customerId !in store then Err("Failed to update address")
    else if CarriesUndefined(patch) && HasId(Addresses(store[customerId]), addressId) then
      Err("Failed to update address")
    else
      var c := store[customerId];
      var list := UpdateAddresses(Addresses(c), addressId, patch);
      assert DistinctIds(Addresses(c)) && AtMostOneDefault(Addresses(c)) ==> AtMostOneDefault(list) by {
        if DistinctIds(Addresses(c)) && AtMostOneDefault(Addresses(c)) {
          UpdateAddressesKeepsDefault(Addresses(c), addressId, patch);
        }
      }
      Ok(store[customerId := c.(savedAddresses := Some(list), updatedAt := now)])
  }

  /** `deleteSavedAddress`. */
  function DeleteSavedAddress(store: CustomerStore, customerId: string, addressId: string, now: int)
    : (r: Result<CustomerStore>)
    ensures r.Err? <==> customerId !in store
    ensures r.Err? ==> r.msg == "Failed to delete address"
    ensures r.Ok? ==> RewritesOnly(store, r.value, customerId, now)
    ensures r.Ok? ==> r.value[customerId].savedPaymentMethods == store[customerId].savedPaymentMethods
    ensures r.Ok? ==> var before, after := Addresses(store[customerId]), Addresses(r.value[customerId]);
      && after == DeleteEntry(before, addressId)
      && (forall e :: e in after <==> e in before && e.id != addressId)
      && (AtMostOneDefault(before) ==> AtMostOneDefault(after))
  {
    if customerId !in store then Err("Failed to delete address")
    else
      var c := store[customerId];
      var list := DeleteEntry(Addresses(c), addressId);
      DeleteEntryMembers(Addresses(c), addressId);
      assert AtMostOneDefault(Addresses(c)) ==> AtMostOneDefault(list) by {
        if AtMostOneDefault(Addresses(c)) {
          DeleteEntryKeepsDefault(Addresses(c), addressId);
        }
      }
      Ok(store[customerId := c.(savedAddresses := Some(list), updatedAt := now)])
  }

  /** Two ids minted from different clock readings differ; only two
      additions in the same millisecond can share one. */
  lemma ClockIdsDiffer(prefix: string, t1: nat, t2: nat)
    requires t1 != t2
    ensures prefix + NatToString(t1) != prefix + NatToString(t2)
  {
    assert (prefix + NatToString(t1))[|prefix|..] == NatToString(t1);
    assert (prefix + NatToString(t2))[|prefix|..] == NatToString(t2);
    NatToStringInjective(t1, t2);
  }

  /** `addSavedPaymentMethod`: the same default rule as for addresses. */
  function AddSavedPaymentMethod(store: CustomerStore, customerId: string, details: PaymentDetails,
                                 requestedDefault: bool, now: nat): (r: Result<CustomerStore>)
    ensures r.Err? <==> customerId !in store
    ensures r.Err? ==> r.msg == "Failed to add payment method"
    ensures r.Ok? ==> RewritesOnly(store, r.value, customerId, now)
    ensures r.Ok? ==> r.value[customerId].savedAddresses == store[customerId].savedAddresses
    ensures r.Ok? ==> var before, after := PaymentMethods(store[customerId]), PaymentMethods(r.value[customerId]);
      && |after| == |before| + 1
      && after[|before|] == Saved("pm_" + NatToString(now), requestedDefault || |before| == 0, details)
      && after == AddEntry(before, details, requestedDefault, "pm_" + NatToString(now))
      && (ExactlyOneDefault(before) ==> ExactlyOneDefault(after))
  {
    if customerId !in store then Err("Failed to add payment method")
    else
      var c := store[customerId];
      var list := AddEntry(PaymentMethods(c), details, requestedDefault, "pm_" + NatToString(now));
      AddEntryKeepsDefault(PaymentMethods(c), details, requestedDefault, "pm_" + NatToString(now));
      Ok(store[customerId := c.(savedPaymentMethods := Some(list), updatedAt := now)])
  }

  /** `deleteSavedPaymentMethod`. */
  function DeleteSavedPaymentMethod(store: CustomerStore, customerId: string, paymentMethodId: string, now: int)
    : (r: Result<CustomerStore>)
    ensures r.Err? <==> customerId !in store
    ensures r.Err? ==> r.msg == "Failed to delete payment method"
    ensures r.Ok? ==> RewritesOnly(store, r.value, customerId, now)
    ensures r.Ok? ==> r.value[customerId].savedAddresses == store[customerId].savedAddresses
    ensures r.Ok? ==> var before, after := PaymentMethods(store[customerId]), PaymentMethods(r.value[customerId]);
      && after == DeleteEntry(before, paymentMethodId)
      && (forall e :: e in after <==> e in before && e.id != paymentMethodId)
      && (AtMostOneDefault(before) ==> AtMostOneDefault(after))
  {
    if customerId !in store then Err("Failed to delete payment method")
    else
      var c := store[customerId];
      var list := DeleteEntry(PaymentMethods(c), paymentMethodId);
      DeleteEntryMembers(PaymentMethods(c), paymentMethodId);
      assert AtMostOneDefault(PaymentMethods(c)) ==> AtMostOneDefault(list) by {
        if AtMostOneDefault(PaymentMethods(c)) {
          DeleteEntryKeepsDefault(PaymentMethods(c), paymentMethodId);
        }
      }
      Ok(store[customerId := c.(savedPaymentMethods := Some(list), updatedAt := now)])
  }
}

=== FILE: customer_menu.dfy ===
/** The storefront menu of `src/pages/customer/CustomerMenu.tsx`: the
    available items grouped by category, the category list and its colours,
    the search and category filter, and the quantity controls that drive
    the cart. */
module CustomerMenu {
  import opened Common
  import opened Menu
  import opened CartContext

  // ---------------------------------------------------------------------
  // Category colours
  // ---------------------------------------------------------------------

  const CategoryColors: seq<string> := [
    "bg-gradient-to-br from-blue-400 to-blue-600",
    "bg-gradient-to-br from-green-400 to-green-600",
    "bg-gradient-to-br from-purple-400 to-purple-600",
    "bg-gradient-to-br from-orange-400 to-orange-600",
    "bg-gradient-to-br from-pink-400 to-pink-600",
    "bg-gradient-to-br from-teal-400 to-teal-600",
    "bg-gradient-to-br from-indigo-400 to-indigo-600",
    "bg-gradient-to-br from-red-400 to-red-600"]

  /** `all.findIndex((cat) => cat === name)`. */
  function IndexOf(all: seq<string>, name: string): (r: int)
    ensures -1 <= r < |all|
    ensures r >= 0 ==> all[r] == name && forall j :: 0 <= j < r ==> all[j] != name
    ensures r < 0 ==> name !in all
  {
    if |all| == 0 then -1
    else if all[0] == name then 0
    else
      var k := IndexOf(all[1..], name);
      if k < 0 then -1 else k + 1
  }

  /** `getCategoryColor`: the colour at the category's position modulo
      eight. A name missing from the list gives index -1, and `-1 % 8` is
      -1 in JavaScript, so the lookup yields `undefined`. */
  function GetCategoryColor(name: string, all: seq<string>): (r: Option<string>)
    ensures r.None? <==> name !in all
    ensures forall i :: 0 <= i < |all| && all[i] == name && (forall j :: 0 <= j < i ==> all[j] != name) ==>
      r == Some(CategoryColors[i % 8])
  {
    var i := IndexOf(all, name);
    if i < 0 then None else Some(CategoryColors[i % |CategoryColors|])
  }

  /** Categories eight places apart share a colour. */
  lemma ColorsRepeatEveryEight(all: seq<string>, i: int)
    requires 0 <= i && i + 8 < |all|
    requires forall a, b :: 0 <= a < b < |all| ==> all[a] != all[b]
    ensures GetCategoryColor(all[i], all) == GetCategoryColor(all[i + 8], all)
  {
    assert (i + 8) % 8 == i % 8;
  }

  // ---------------------------------------------------------------------
  // Grouping
  // ---------------------------------------------------------------------

  /** The items of one category, in menu order: the reference the grouping
      is checked against. */
  function InCategory(items: seq<MenuItem>, category: string): (r: seq<MenuItem>)
    ensures forall x :: x in r <==> x in items && x.data.category == category
    ensures (forall x :: x in items ==> x.data.category != category) ==> r == []
  {
    if |items| == 0 then []
    else
      var last := items[|items| - 1];
      assert items == items[..|items| - 1] + [last];
      InCategory(items[..|items| - 1], category) + (if last.data.category == category then [last] else [])
  }

  /** The `reduce` that builds `groupedItems`: each item is pushed onto the
      list of its category, created on first use. */
  function GroupItems(items: seq<MenuItem>): (r: map<string, seq<MenuItem>>)
    ensures forall c :: c in r <==> exists x :: x in items && x.data.category == c
  {
    if |items| == 0 then map[]
    else
      var init := items[..|items| - 1];
      var last := items[|items| - 1];
      assert items == init + [last];
      var acc := GroupItems(init);
      acc[last.data.category := (if last.data.category in acc then acc[last.data.category] else []) + [last]]
  }

  /** Each group holds exactly the items of its category, in menu order. */
  lemma {:induction false} GroupsAreCategoryFilters(items: seq<MenuItem>)
    ensures forall c :: c in GroupItems(items) ==> GroupItems(items)[c] == InCategory(items, c)
    decreases |items|
  {
    if |items| > 0 {
      var init := items[..|items| - 1];
      GroupsAreCategoryFilters(init);
      forall c | c in GroupItems(items)
        ensures GroupItems(items)[c] == InCategory(items, c)
      {
        if c !in GroupItems(init) {
          assert InCategory(init, c) == [];
        }
      }
    }
  }

  // ---------------------------------------------------------------------
  // The category list
  // ---------------------------------------------------------------------

  /** The default order of `Array.prototype.sort` on strings: lexicographic
      by character code. */
  predicate StrLess(a: string, b: string)
    decreases |a|
  {
    if |a| == 0 then |b| > 0
    else if |b| == 0 then false
    else if a[0] != b[0] then a[0] < b[0]
    else StrLess(a[1..], b[1..])
  }

  lemma {:induction false} StrLessIrreflexive(a: string)
    ensures !StrLess(a, a)
    decreases |a|
  {
    if |a| > 0 {
      StrLessIrreflexive(a[1..]);
    }
  }

  lemma {:induction false} StrLessTotal(a: string, b: string)
    requires a != b
    ensures StrLess(a, b) || StrLess(b, a)
    decreases |a|
  {
    if |a| > 0 && |b| > 0 && a[0] == b[0] {
      assert a == [a[0]] + a[1..] && b == [b[0]] + b[1..];
      StrLessTotal(a[1..], b[1..]);
    }
  }

  predicate StrictlySorted(s: seq<string>)
  {
    forall i, j :: 0 <= i < j < |s| ==> StrLess(s[i], s[j])
  }

  /** Adds `x` to a strictly sorted list unless it is already there. */
  function InsertName(x: string, s: seq<string>): (r: seq<string>)
    requires StrictlySorted(s)
    ensures StrictlySorted(r)
    ensures forall y :: y in r <==> y == x || y in s
  {
    if |s| == 0 then [x]
    else if x == s[0] then s
    else if StrLess(x, s[0]) then
      assert forall j :: 0 <= j < |s| ==> StrLess(x, s[j]) by {
        forall j | 0 <= j < |s| ensures StrLess(x, s[j]) {
          if j > 0 { StrLessTransitive(x, s[0], s[j]); }
        }
      }
      [x] + s
    else
      StrLessTotal(x, s[0]);
      var tail := InsertName(x, s[1..]);
      assert forall y :: y in s[1..] ==> StrLess(s[0], y);
      [s[0]] + tail
  }

  lemma {:induction false} StrLessTransitive(a: string, b: string, c: string)
    requires StrLess(a, b) && StrLess(b, c)
    ensures StrLess(a, c)
    decreases |a|
  {
    if |a| > 0 && |b| > 0 && |c| > 0 && a[0] == b[0] && b[0] == c[0] {
      StrLessTransitive(a[1..], b[1..], c[1..]);
    }
  }

  /** `Object.keys(groupedItems).sort()`: every category once, in string
      order. */
  function Categories(items: seq<MenuItem>): (r: seq<string>)
    ensures StrictlySorted(r)
    ensures forall c :: c in r <==> c in GroupItems(items)
  {
    if |items| == 0 then []
    else
      var init := items[..|items| - 1];
      assert items == init + [items[|items| - 1]];
      InsertName(items[|items| - 1].data.category, Categories(init))
  }

  /** A strictly sorted list never repeats a name. */
  lemma CategoriesDistinct(items: seq<MenuItem>)
    ensures forall i, j :: 0 <= i < j < |Categories(items)| ==> Categories(items)[i] != Categories(items)[j]
  {
    var r := Categories(items);
    forall i, j | 0 <= i < j < |r| ensures r[i] != r[j] {
      StrLessIrreflexive(r[i]);
    }
  }

  // ---------------------------------------------------------------------
  // Search and filter
  // ---------------------------------------------------------------------

  /** The search box: the lower-cased query occurs in the lower-cased name
      or description. */
  predicate MatchesSearch(x: MenuItem, searchQuery: string)
  {
    Contains(Lower(x.data.name), Lower(searchQuery)) || Contains(Lower(x.data.description), Lower(searchQuery))
  }

  /** The category chips: no (truthy) selection, or the item's category. */
  predicate MatchesCategory(x: MenuItem, selected: Option<string>)
  {
    !Truthy(selected) || x.data.category == selected.value
  }

  /** `filteredItems`: the items passing both tests, in menu order. */
  function FilterItems(items: seq<MenuItem>, searchQuery: string, selected: Option<string>): (r: seq<MenuItem>)
    ensures |r| <= |items|
  {
    if |items| == 0 then []
    else
      var last := items[|items| - 1];
      FilterItems(items[..|items| - 1], searchQuery, selected)
        + (if MatchesSearch(last, searchQuery) && MatchesCategory(last, selected) then [last] else [])
  }

  /** An item is shown exactly when it is on the menu and passes both tests. */
  lemma {:induction false} FilterMembers(items: seq<MenuItem>, searchQuery: string, selected: Option<string>)
    ensures forall x :: x in FilterItems(items, searchQuery, selected) <==>
      x in items && MatchesSearch(x, searchQuery) && MatchesCategory(x, selected)
    decreases |items|
  {
    if |items| > 0 {
      var init := items[..|items| - 1];
      FilterMembers(init, searchQuery, selected);
      assert items == init + [items[|items| - 1]];
    }
  }

  /** An empty search with no category selected shows the whole menu, in
      order. */
  lemma {:induction false} EmptyFilterKeepsAll(items: seq<MenuItem>)
    ensures FilterItems(items, "", None) == items
    decreases |items|
  {
    if |items| > 0 {
      var init, last := items[..|items| - 1], items[|items| - 1];
      EmptyFilterKeepsAll(init);
      EmptySearchMatches(last);
      assert FilterItems(items, "", None) == init + [last];
      assert init + [last] == items;
    }
  }

  lemma EmptySearchMatches(x: MenuItem)
    ensures MatchesSearch(x, "")
  {
    assert Lower("") == "";
    ContainsEmpty(Lower(x.data.name));
  }

  /** `filteredGroupedItems`: the filtered items regrouped; with a category
      selected only that group can be present. */
  lemma FilteredGroupsOnlySelected(items: seq<MenuItem>, searchQuery: string, c: string)
    requires c != ""
    ensures forall k :: k in GroupItems(FilterItems(items, searchQuery, Some(c))) ==> k == c
  {
    FilterMembers(items, searchQuery, Some(c));
  }

  // ---------------------------------------------------------------------
  // The cart controls
  // ---------------------------------------------------------------------

  /** `getItemQuantityInCart`: the quantity of the first line for the item,
      or 0 when there is none. */
  function GetItemQuantityInCart(cart: CartState, menuItemId: string): (r: int)
    ensures (forall j :: 0 <= j < |cart.items| ==> cart.items[j].menuItem.id != menuItemId) ==> r == 0
    ensures forall i :: (&& 0 <= i < |cart.items| && cart.items[i].menuItem.id == menuItemId
                         && (forall j :: 0 <= j < i ==> cart.items[j].menuItem.id != menuItemId))
                        ==> r == cart.items[i].quantity
  {
    var i := FindIndex(cart.items, menuItemId);
    if i >= 0 then cart.items[i].quantity else 0
  }

  /** The storefront's restaurant once its lookup has finished. */
  datatype StoreRef = StoreRef(id: string, name: string)

  /** `handleAddToCart`: nothing until the restaurant is known, then an
      ADD_ITEM for that restaurant. */
  function HandleAddToCart(cart: CartState, restaurant: Option<StoreRef>, item: MenuItem): (r: CartState)
    ensures restaurant.None? ==> r == cart
    ensures restaurant.Some? ==> r.restaurantId == Some(restaurant.value.id) || r.restaurantId == cart.restaurantId
    ensures restaurant.Some? ==>
              GetItemQuantityInCart(r, item.id)
              == (if SwitchesRestaurant(cart, restaurant.value.id) then 1 else GetItemQuantityInCart(cart, item.id) + 1)
  {
    if restaurant.None? then cart
    else
      var after := Reduce(cart, AddItem(item, restaurant.value.id, restaurant.value.name));
      AddQuantityStep(cart, item, restaurant.value.id, restaurant.value.name);
      after
  }

  lemma AddQuantityStep(cart: CartState, item: MenuItem, rid: string, rname: string)
    ensures var after := Reduce(cart, AddItem(item, rid, rname));
      GetItemQuantityInCart(after, item.id) ==
        if SwitchesRestaurant(cart, rid) then 1 else GetItemQuantityInCart(cart, item.id) + 1
  {
    var after := Reduce(cart, AddItem(item, rid, rname));
    if !SwitchesRestaurant(cart, rid) {
      var i := FindIndex(cart.items, item.id);
      if i < 0 {
        assert after.items[|cart.items|].menuItem.id == item.id;
        assert forall j :: 0 <= j < |cart.items| ==> after.items[j] == cart.items[j];
      } else {
        assert forall j :: 0 <= j < i ==> after.items[j] == cart.items[j];
        assert after.items[i].menuItem.id == item.id;
      }
    } else {
      assert after.items[0].menuItem.id == item.id;
    }
  }

  /** The minus control at quantity one removes the line: the reducer
      treats the new quantity 0 as a removal, and the item reads as absent. */
  lemma MinusAtOneRemoves(cart: CartState, menuItemId: string)
    requires GetItemQuantityInCart(cart, menuItemId) == 1
    ensures var after := Reduce(cart, UpdateQuantity(menuItemId, GetItemQuantityInCart(cart, menuItemId) - 1));
      && (forall x :: x in after.items ==> x.menuItem.id != menuItemId)
      && GetItemQuantityInCart(after, menuItemId) == 0
  {
    var after := Reduce(cart, UpdateQuantity(menuItemId, 0));
    WithoutMembers(cart.items, menuItemId);
    assert forall j :: 0 <= j < |after.items| ==> after.items[j] in after.items;
  }

  /** The plus control sets the line's quantity one higher. */
  lemma PlusIncrements(cart: CartState, menuItemId: string)
    requires GetItemQuantityInCart(cart, menuItemId) >= 1
    ensures var after := Reduce(cart, UpdateQuantity(menuItemId, GetItemQuantityInCart(cart, menuItemId) + 1));
      GetItemQuantityInCart(after, menuItemId) == GetItemQuantityInCart(cart, menuItemId) + 1
  {
    var i := FindIndex(cart.items, menuItemId);
    assert i >= 0;
    var q := cart.items[i].quantity + 1;
    var after := Reduce(cart, UpdateQuantity(menuItemId, q));
    assert after.items == SetQuantity(cart.items, menuItemId, q);
    assert forall j :: 0 <= j < i ==> after.items[j] == cart.items[j];
    assert after.items[i] == cart.items[i].(quantity := q);
  }
}

=== FILE: menu.dfy ===
/** The menu-item collection of `src/services/menuService.ts`: documents
    keyed by a store-assigned id, one collection shared by every restaurant
    and partitioned by the `restaurantId` field. */
module Menu {
  import opened Common

  /** The data of a stored menu-item document. */
  datatype MenuDoc = MenuDoc(
    restaurantId: string,
    name: string,
    description: string,
    price: real,
    category: string,
    imageUrl: Option<string>,
    available: bool,
    createdAt: int,
    updatedAt: int)

  /** A menu item as read back from the store, with its document id. */
  type MenuItem = Doc<MenuDoc>

  type MenuStore = map<string, MenuDoc>

  /** The argument of `addMenuItem`: every field but the id and timestamps. */
  datatype NewMenuItem = NewMenuItem(
    restaurantId: string,
    name: string,
    description: string,
    price: real,
    category: string,
    imageUrl: Option<string>,
    available: bool)

  /** The argument of `updateMenuItem`: `None` is an absent or `undefined`
      key, which the service filters out; `Some(v)` is written. */
  datatype MenuPatch = MenuPatch(
    restaurantId: Option<string>,
    name: Option<string>,
    description: Option<string>,
    price: Option<real>,
    category: Option<string>,
    imageUrl: Option<string>,
    available: Option<bool>)

  /** The value a patched field takes: the patch's value when one is given. */
  function Pick<T>(update: Option<T>, current: T): T
  {
    if update.Some? then update.value else current
  }

  /** `addMenuItem`: stores the item under the fresh id the store assigns,
      with both timestamps set to `now`; the image URL is stored only when
      it is a non-empty string. The returned item carries the argument's
      fields unfiltered. */
  function AddMenuItem(store: MenuStore, item: NewMenuItem, id: string, now: int)
    : (r: (MenuStore, MenuItem))
    ensures r.0.Keys == store.Keys + {id}
    ensures OthersUnchanged(store, r.0, id)
    ensures var d := r.0[id];
      && d.restaurantId == item.restaurantId && d.name == item.name
      && d.description == item.description && d.price == item.price
      && d.category == item.category && d.available == item.available
      && d.createdAt == now && d.updatedAt == now
    ensures r.0[id].imageUrl.Some? <==> Truthy(item.imageUrl)
    ensures r.0[id].imageUrl.Some? ==> r.0[id].imageUrl == item.imageUrl
    ensures r.1.id == id && r.1.data == r.0[id].(imageUrl := item.imageUrl)
  {
    var stored := MenuDoc(item.restaurantId, item.name, item.description, item.price,
                          item.category, if Truthy(item.imageUrl) then item.imageUrl else None,
                          item.available, now, now);
    (store[id := stored], Doc(id, stored.(imageUrl := item.imageUrl)))
  }

  /** `getMenuItemsByRestaurant`: every item of the restaurant, once each. */
  method GetMenuItemsByRestaurant(store: MenuStore, restaurantId: string) returns (items: seq<MenuItem>)
    ensures forall it :: it in items <==>
      it.id in store && it.data == store[it.id] && it.data.restaurantId == restaurantId
    ensures forall i, j :: 0 <= i < j < |items| ==> items[i].id != items[j].id
  {
    items := Query(store, (d: MenuDoc) => d.restaurantId == restaurantId);
  }

  /** `getAvailableMenuItems`: the restaurant's items whose `available`
      flag is set (the customer-facing menu). */
  method GetAvailableMenuItems(store: MenuStore, restaurantId: string) returns (items: seq<MenuItem>)
    ensures forall it :: it in items <==>
      it.id in store && it.data == store[it.id] && it.data.restaurantId == restaurantId && it.data.available
    ensures forall i, j :: 0 <= i < j < |items| ==> items[i].id != items[j].id
  {
    items := Query(store, (d: MenuDoc) => d.restaurantId == restaurantId && d.available);
  }

  /** The merge `updateDoc` performs: defined keys overwrite, every other
      field keeps its value, and `updatedAt` becomes `now`. */
  function Merge(d: MenuDoc, patch: MenuPatch, now: int): MenuDoc
  {
    d.(restaurantId := Pick(patch.restaurantId, d.restaurantId),
       name := Pick(patch.name, d.name),
       description := Pick(patch.description, d.description),
       price := Pick(patch.price, d.price),
       category := Pick(patch.category, d.category),
       imageUrl := if patch.imageUrl.Some? then patch.imageUrl else d.imageUrl,
       available := Pick(patch.available, d.available),
       updatedAt := now)
  }

  /** `updateMenuItem`: fails as the store does when the document does not
      exist; otherwise merges the patch into that one document. */
  function UpdateMenuItem(store: MenuStore, id: string, patch: MenuPatch, now: int): (r: Result<MenuStore>)
    ensures r.Err? <==> id !in store
    ensures r.Err? ==> r.msg == "Failed to update menu item"
    ensures r.Ok? ==> r.value.Keys == store.Keys && OthersUnchanged(store, r.value, id)
    ensures r.Ok? ==> var d, e := store[id], r.value[id];
      && (patch.name.None? ==> e.name == d.name)
      && (patch.name.Some? ==> e.name == patch.name.value)
      && (patch.price.None? ==> e.price == d.price)
      && (patch.price.Some? ==> e.price == patch.price.value)
      && (patch.available.None? ==> e.available == d.available)
      && (patch.available.Some? ==> e.available == patch.available.value)
      && e.restaurantId == Pick(patch.restaurantId, d.restaurantId)
      && e.description == Pick(patch.description, d.description)
      && e.category == Pick(patch.category, d.category)
      && (patch.imageUrl.None? ==> e.imageUrl == d.imageUrl)
      && (patch.imageUrl.Some? ==> e.imageUrl == patch.imageUrl)
      && e.createdAt == d.createdAt && e.updatedAt == now
  {
    if id !in store then Err("Failed to update menu item")
    else Ok(store[id := Merge(store[id], patch, now)])
  }

  /** Applying the same update twice at the same instant is the same as
      applying it once. */
  lemma UpdateMenuItemIdempotent(store: MenuStore, id: string, patch: MenuPatch, now: int)
    requires id in store
    ensures UpdateMenuItem(UpdateMenuItem(store, id, patch, now).value, id, patch, now)
         == UpdateMenuItem(store, id, patch, now)
  {
    var once := Merge(store[id], patch, now);
    assert Merge(once, patch, now) == once;
    assert store[id := once][id := once] == store[id := once];
  }

  /** `deleteMenuItem`: removes that one document; deleting a missing
      document is not an error. */
  function DeleteMenuItem(store: MenuStore, id: string): (r: MenuStore)
    ensures id !in r
    ensures OthersUnchanged(store, r, id)
  {
    DeleteDoc(store, id)
  }

  /** `toggleMenuItemAvailability`: an update whose only key is `available`. */
  function ToggleMenuItemAvailability(store: MenuStore, id: string, available: bool, now: int)
    : (r: Result<MenuStore>)
    ensures r.Err? <==> id !in store
    ensures r.Err? ==> r.msg == "Failed to toggle availability"
    ensures r.Ok? ==> r.value.Keys == store.Keys && OthersUnchanged(store, r.value, id)
    ensures r.Ok? ==> r.value[id] == store[id].(available := available, updatedAt := now)
  {
    var patch := MenuPatch(None, None, None, None, None, None, Some(available));
    match UpdateMenuItem(store, id, patch, now)
    case Ok(s) => Ok(s)
    case Err(_) => Err("Failed to toggle availability")
  }
}

=== FILE: orders.dfy ===
/** The orders of `src/services/ordersService.ts`: one shared collection
    partitioned by `restaurantId`, listed newest first, with a status that
    is either open or closed. */
module Orders {
  import opened Common

  datatype OrderStatus = Open | Closed

  datatype OrderItem = OrderItem(name: string, quantity: int, price: real)

  datatype OrderDoc = OrderDoc(
    restaurantId: string,
    status: OrderStatus,
    customerName: string,
    customerEmail: Option<string>,
    customerPhone: Option<string>,
    items: seq<OrderItem>,
    total: real,
    createdAt: int,
    updatedAt: int)

  type Order = Doc<OrderDoc>
  type OrderStore = map<string, OrderDoc>

  /** The argument of `createOrder`: every field but the id and timestamps. */
  datatype NewOrder = NewOrder(
    restaurantId: string,
    status: OrderStatus,
    customerName: string,
    customerEmail: Option<string>,
    customerPhone: Option<string>,
    items: seq<OrderItem>,
    total: real)

  /** `createOrder`: stores the order as given, status and total included,
      with both timestamps `now`, under the id the store assigns. */
  function CreateOrder(store: OrderStore, order: NewOrder, id: string, now: int)
    : (r: (OrderStore, Order))
    ensures r.0.Keys == store.Keys + {id}
    ensures OthersUnchanged(store, r.0, id)
    ensures r.1.id == id && r.1.data == r.0[id]
    ensures var d := r.0[id];
      && d.restaurantId == order.restaurantId && d.status == order.status
      && d.customerName == order.customerName && d.customerEmail == order.customerEmail
      && d.customerPhone == order.customerPhone && d.items == order.items
      && d.total == order.total && d.createdAt == now && d.updatedAt == now
  {
    var d := OrderDoc(order.restaurantId, order.status, order.customerName, order.customerEmail,
                      order.customerPhone, order.items, order.total, now, now);
    (store[id := d], Doc(id, d))
  }

  /** `o` is a stored order of the restaurant, read back with its id. */
  predicate Listed(store: OrderStore, restaurantId: string, o: Order)
  {
    o.id in store && o.data == store[o.id] && o.data.restaurantId == restaurantId
  }

  /** The sort key that puts later orders first. */
  function Newest(o: Order): int
  {
    -o.data.createdAt
  }

  /** Later orders come first. */
  predicate NewestFirst(orders: seq<Order>)
  {
    forall i, j :: 0 <= i < j < |orders| ==> orders[i].data.createdAt >= orders[j].data.createdAt
  }

  /** The list a query snapshot of the restaurant's orders turns into. */
  ghost predicate IsOrderListing(store: OrderStore, restaurantId: string, orders: seq<Order>)
  {
    && (forall o :: multiset(orders)[o] == (if Listed(store, restaurantId, o) then 1 else 0))
    && NewestFirst(orders)
  }

  /** `getOrdersByRestaurant`: exactly the restaurant's orders, each once,
      newest first. */
  method GetOrdersByRestaurant(store: OrderStore, restaurantId: string) returns (orders: seq<Order>)
    ensures IsOrderListing(store, restaurantId, orders)
    ensures forall o :: o in orders <==> Listed(store, restaurantId, o)
  {
    var found := Query(store, (d: OrderDoc) => d.restaurantId == restaurantId);
    orders := SortBy(found, Newest);
    assert forall o :: o in orders <==> o in multiset(found);
    assert forall i, j :: 0 <= i < j < |orders| ==> Newest(orders[i]) <= Newest(orders[j]);
  }

  /** `subscribeToOrders`: for every snapshot of the collection the
      listener receives, the callback gets that snapshot's listing. */
  method SubscribeToOrders(snapshots: seq<OrderStore>, restaurantId: string)
    returns (deliveries: seq<seq<Order>>)
    ensures |deliveries| == |snapshots|
    ensures forall k :: 0 <= k < |snapshots| ==> IsOrderListing(snapshots[k], restaurantId, deliveries[k])
  {
    deliveries := [];
    var k := 0;
    while k < |snapshots|
      invariant 0 <= k <= |snapshots| && |deliveries| == k
      invariant forall m :: 0 <= m < k ==> IsOrderListing(snapshots[m], restaurantId, deliveries[m])
    {
      var orders := GetOrdersByRestaurant(snapshots[k], restaurantId);
      deliveries := deliveries + [orders];
      k := k + 1;
    }
  }

  /** Two listings of the same snapshot hold the same orders and differ at
      most in the order of orders created at the same instant: position by
      position, their creation times agree. */
  lemma ListingsAgree(store: OrderStore, restaurantId: string, a: seq<Order>, b: seq<Order>)
    requires IsOrderListing(store, restaurantId, a) && IsOrderListing(store, restaurantId, b)
    ensures multiset(a) == multiset(b)
    ensures |a| == |b|
    ensures forall i :: 0 <= i < |a| ==> a[i].data.createdAt == b[i].data.createdAt
  {
    assert multiset(a) == multiset(b);
    SameOrdersSameTimes(a, b);
  }

  /** Two newest-first lists of the same orders have the same creation time
      at every position. */
  lemma {:induction false} SameOrdersSameTimes(a: seq<Order>, b: seq<Order>)
    requires multiset(a) == multiset(b) && NewestFirst(a) && NewestFirst(b)
    ensures |a| == |b|
    ensures forall i :: 0 <= i < |a| ==> a[i].data.createdAt == b[i].data.createdAt
    decreases |a|
  {
    assert |a| == |multiset(a)| == |multiset(b)| == |b|;
    if |a| > 0 {
      var j := HeadMatch(a, b);
      var rest := DropAt(b, j);
      DropAtNewestFirst(b, j);
      DropAtMultiset(b, j);
      TailMultiset(a);
      SuffixNewestFirst(a);
      SameOrdersSameTimes(a[1..], rest);
      forall i | 0 <= i < |a| ensures a[i].data.createdAt == b[i].data.createdAt {
        if i > 0 {
          assert a[i] == a[1..][i - 1];
          if i - 1 < j {
            assert rest[i - 1] == b[i - 1];
          } else {
            assert rest[i - 1] == b[i];
          }
        }
      }
    }
  }

  /** The first order of `a` sits at some position `j` of `b`, and every
      order of `b` up to there was created at the same instant. */
  lemma HeadMatch(a: seq<Order>, b: seq<Order>) returns (j: nat)
    requires |a| > 0 && multiset(a) == multiset(b) && NewestFirst(a) && NewestFirst(b)
    ensures j < |b| && b[j] == a[0]
    ensures forall i :: 0 <= i <= j ==> b[i].data.createdAt == a[0].data.createdAt
  {
    assert a[0] in multiset(b) && a[0] in multiset(a);
    j :| 0 <= j < |b| && b[j] == a[0];
    assert b[0] in multiset(a);
    var k :| 0 <= k < |a| && a[k] == b[0];
  }

  lemma TailMultiset(a: seq<Order>)
    requires |a| > 0
    ensures multiset(a[1..]) == multiset(a) - multiset{a[0]}
  {
    assert a == [a[0]] + a[1..];
  }

  /** `b` without its `j`-th order. */
  function DropAt(b: seq<Order>, j: nat): (r: seq<Order>)
    requires j < |b|
    ensures |r| == |b| - 1
    ensures forall i :: 0 <= i < |r| ==> r[i] == (if i < j then b[i] else b[i + 1])
  {
    b[..j] + b[j + 1..]
  }

  /** Dropping one order keeps the list newest first. */
  lemma DropAtNewestFirst(b: seq<Order>, j: nat)
    requires j < |b| && NewestFirst(b)
    ensures NewestFirst(DropAt(b, j))
  {
    var r := DropAt(b, j);
    forall i, k | 0 <= i < k < |r| ensures r[i].data.createdAt >= r[k].data.createdAt {
      var i', k' := if i < j then i else i + 1, if k < j then k else k + 1;
      assert r[i] == b[i'] && r[k] == b[k'] && i' < k';
    }
  }

  /** Dropping one order removes one copy of it. */
  lemma DropAtMultiset(b: seq<Order>, j: nat)
    requires j < |b|
    ensures multiset(DropAt(b, j)) == multiset(b) - multiset{b[j]}
  {
    assert b == b[..j] + [b[j]] + b[j + 1..];
    assert DropAt(b, j) == b[..j] + b[j + 1..];
  }

  lemma SuffixNewestFirst(a: seq<Order>)
    requires |a| > 0 && NewestFirst(a)
    ensures NewestFirst(a[1..])
  {
    forall i, j | 0 <= i < j < |a[1..]|
      ensures a[1..][i].data.createdAt >= a[1..][j].data.createdAt
    {
      assert a[1..][i] == a[i + 1] && a[1..][j] == a[j + 1];
    }
  }

  /** `updateOrderStatus`: sets the status, whatever it was, and refreshes
      `updatedAt`; a missing order is an error. */
  function UpdateOrderStatus(store: OrderStore, id: string, status: OrderStatus, now: int)
    : (r: Result<OrderStore>)
    ensures r.Err? <==> id !in store
    ensures r.Err? ==> r.msg == "Failed to update order status"
    ensures r.Ok? ==> r.value.Keys == store.Keys && OthersUnchanged(store, r.value, id)
    ensures r.Ok? ==> r.value[id] == store[id].(status := status, updatedAt := now)
  {
    if id !in store then Err("Failed to update order status")
    else Ok(store[id := store[id].(status := status, updatedAt := now)])
  }

  /** `completeOrder`: closes the order. */
  function CompleteOrder(store: OrderStore, id: string, now: int): (r: Result<OrderStore>)
    ensures r.Err? <==> id !in store
    ensures r.Err? ==> r.msg == "Failed to update order status"
    ensures r.Ok? ==> r.value.Keys == store.Keys && OthersUnchanged(store, r.value, id)
    ensures r.Ok? ==> r.value[id] == store[id].(status := Closed, updatedAt := now)
  {
    UpdateOrderStatus(store, id, Closed, now)
  }

  /** Completing an order twice is completing it once, up to the later
      timestamp; the order is not reopened. */
  lemma CompleteOrderIdempotent(store: OrderStore, id: string, t1: int, t2: int)
    requires id in store
    ensures CompleteOrder(CompleteOrder(store, id, t1).value, id, t2) == CompleteOrder(store, id, t2)
  {
    var once := CompleteOrder(store, id, t1).value;
    assert once[id := once[id].(status := Closed, updatedAt := t2)]
        == store[id := store[id].(status := Closed, updatedAt := t2)];
  }

  /** No transition is refused: a closed order can be reopened. */
  lemma ClosedOrderCanReopen(store: OrderStore, id: string, now: int)
    requires id in store && store[id].status == Closed
    ensures UpdateOrderStatus(store, id, Open, now).value[id].status == Open
  {
  }
}

=== FILE: restaurant_service.dfy ===
/** The tenant registry of `src/services/restaurantService.ts`: one
    restaurant document and one owner profile per signed-up account, both
    keyed by the account's uid, and the lookup of a restaurant by the
    subdomain its storefront is served under. */
module RestaurantService {
  import opened Common
  import Signup

  datatype Restaurant = Restaurant(
    name: string,
    subdomain: string,
    ownerName: string,
    ownerEmail: string,
    phone: string,
    stripeAccountId: Option<string>,
    subscriptionStatus: string,
    subscriptionPlan: string,
    createdAt: int,
    updatedAt: int)

  datatype UserProfile = UserProfile(
    email: string,
    name: string,
    restaurantId: string,
    role: string,
    createdAt: int)

  /** The two collections the registry writes, keyed by uid. */
  datatype Db = Db(restaurants: map<string, Restaurant>, users: map<string, UserProfile>)

  datatype RestaurantSignupData = RestaurantSignupData(
    restaurantName: string,
    ownerName: string,
    email: string,
    phone: string,
    subdomain: string,
    password: string)

  /** What the authentication provider answers to the request to create an
      account: the new uid, or an error with its code and message (either
      may be empty). */
  datatype AuthOutcome = UserCreated(uid: string) | AuthFailed(code: string, message: string)

  datatype SignupReply = SignupReply(success: bool, userId: string, subdomain: string)

  /** The subdomains the service never hands out. */
  const Reserved: seq<string> := ["admin", "dashboard", "www", "api", "app", "mail", "support"]

  /** Some restaurant is stored under `slug`. */
  predicate Taken(db: Db, slug: string)
  {
    exists id | id in db.restaurants :: db.restaurants[id].subdomain == slug
  }

  /** `checkSubdomainAvailability`: compared in lower case, a subdomain is
      available unless it is reserved or some restaurant already has it.
      Its length and characters are not checked here. */
  function CheckSubdomainAvailability(db: Db, subdomain: string): (r: bool)
    ensures r ==> Lower(subdomain) !in Reserved
    ensures r ==> forall id :: id in db.restaurants ==> db.restaurants[id].subdomain != Lower(subdomain)
    ensures !r ==> Lower(subdomain) in Reserved || exists id :: id in db.restaurants && db.restaurants[id].subdomain == Lower(subdomain)
  {
    var slug := Lower(subdomain);
    if slug in Reserved then false else !Taken(db, slug)
  }

  /** The message `signupRestaurant` rethrows for a failure: three
      provider codes have their own wording, anything else keeps its own
      message or falls back to a generic one. It is never empty. */
  function SignupErrorMessage(code: string, message: string): (r: string)
    ensures r != ""
    ensures (&& code != "auth/email-already-in-use" && code != "auth/weak-password"
             && code != "auth/invalid-email" && message != "") ==> r == message
  {
    if code == "auth/email-already-in-use" then "Email is already registered"
    else if code == "auth/weak-password" then "Password should be at least 6 characters"
    else if code == "auth/invalid-email" then "Invalid email address"
    else if message != "" then message
    else "Failed to sign up. Please try again."
  }

  /** The restaurant document written for a new account. */
  function NewRestaurant(data: RestaurantSignupData, now: int): Restaurant
  {
    Restaurant(data.restaurantName, Lower(data.subdomain), data.ownerName, data.email, data.phone,
               None, "trial", "standard", now, now)
  }

  /** `signupRestaurant`. An unavailable subdomain fails before the provider
      is asked for an account; otherwise a provider failure is reported with
      its mapped message, and a new account gets a restaurant document and
      an owner profile under its uid, the profile pointing at the
      restaurant. */
  function SignupRestaurant(db: Db, data: RestaurantSignupData, auth: AuthOutcome, now: int)
    : (r: Result<(Db, SignupReply)>)
    ensures !CheckSubdomainAvailability(db, data.subdomain) ==> r == Err("Subdomain is not available")
    ensures CheckSubdomainAvailability(db, data.subdomain) && auth.AuthFailed? ==>
              r == Err(SignupErrorMessage(auth.code, auth.message))
    ensures r.Ok? <==> CheckSubdomainAvailability(db, data.subdomain) && auth.UserCreated?
    ensures r.Ok? ==> var (db', reply) := r.value; var uid := auth.uid;
      && db'.restaurants.Keys == db.restaurants.Keys + {uid}
      && db'.users.Keys == db.users.Keys + {uid}
      && OthersUnchanged(db.restaurants, db'.restaurants, uid)
      && OthersUnchanged(db.users, db'.users, uid)
      && db'.restaurants[uid].subdomain == Lower(data.subdomain)
      && db'.restaurants[uid].name == data.restaurantName
      && db'.restaurants[uid].ownerEmail == data.email
      && db'.restaurants[uid].stripeAccountId.None?
      && db'.restaurants[uid].subscriptionStatus == "trial"
      && db'.restaurants[uid].subscriptionPlan == "standard"
      && db'.users[uid] == UserProfile(data.email, data.ownerName, uid, "owner", now)
      && reply == SignupReply(true, uid, Lower(data.subdomain))
  {
    if !CheckSubdomainAvailability(db, data.subdomain) then Err("Subdomain is not available")
    else match auth
      case AuthFailed(code, message) => Err(SignupErrorMessage(code, message))
      case UserCreated(uid) =>
        var db' := Db(db.restaurants[uid := NewRestaurant(data, now)],
                      db.users[uid := UserProfile(data.email, data.ownerName, uid, "owner", now)]);
        Ok((db', SignupReply(true, uid, Lower(data.subdomain))))
  }

  /** When the subdomain is unavailable the provider's answer plays no
      part: no account is created. */
  lemma UnavailableIgnoresAuth(db: Db, data: RestaurantSignupData, a1: AuthOutcome, a2: AuthOutcome, now: int)
    requires !CheckSubdomainAvailability(db, data.subdomain)
    ensures SignupRestaurant(db, data, a1, now) == SignupRestaurant(db, data, a2, now)
  {
  }

  /** No two restaurants share a subdomain. */
  ghost predicate UniqueSubdomains(db: Db)
  {
    forall i, j :: i in db.restaurants && j in db.restaurants && i != j ==>
      db.restaurants[i].subdomain != db.restaurants[j].subdomain
  }

  /** Every owner profile points at the restaurant stored under its own uid. */
  ghost predicate ProfilesLinked(db: Db)
  {
    forall u :: u in db.users && db.users[u].role == "owner" ==>
      db.users[u].restaurantId == u && u in db.restaurants
  }

  /** Signing up keeps subdomains unique and owner profiles linked. */
  lemma SignupPreservesRegistry(db: Db, data: RestaurantSignupData, auth: AuthOutcome, now: int)
    requires UniqueSubdomains(db) && ProfilesLinked(db)
    requires SignupRestaurant(db, data, auth, now).Ok?
    ensures UniqueSubdomains(SignupRestaurant(db, data, auth, now).value.0)
    ensures ProfilesLinked(SignupRestaurant(db, data, auth, now).value.0)
  {
  }

  /** `id` is a restaurant whose subdomain is `subdomain` in lower case. */
  predicate Resolves(db: Db, subdomain: string, id: string)
  {
    id in db.restaurants && db.restaurants[id].subdomain == Lower(subdomain)
  }

  /** `getRestaurantBySubdomain`: some restaurant stored under the
      subdomain, compared in lower case, or `None` when there is none. */
  method GetRestaurantBySubdomain(db: Db, subdomain: string) returns (r: Option<Doc<Restaurant>>)
    ensures r.None? <==> forall id :: id in db.restaurants ==> !Resolves(db, subdomain, id)
    ensures r.Some? ==> Resolves(db, subdomain, r.value.id) && r.value.data == db.restaurants[r.value.id]
    ensures r.Some? && UniqueSubdomains(db) ==> forall id :: Resolves(db, subdomain, id) ==> id == r.value.id
  {
    var slug := Lower(subdomain);
    var found := Query(db.restaurants, (x: Restaurant) => x.subdomain == slug);
    if |found| == 0 {
      r := None;
      assert forall id :: id in db.restaurants ==> Doc(id, db.restaurants[id]) !in found;
    } else {
      assert found[0] in found;
      r := Some(found[0]);
    }
  }

  /** A restaurant signed up under a subdomain is found afterwards under
      every spelling of it that differs only in ASCII case, and it is the
      only one found. */
  lemma SignupThenResolve(db: Db, data: RestaurantSignupData, uid: string, now: int, spelling: string)
    requires UniqueSubdomains(db)
    requires SignupRestaurant(db, data, UserCreated(uid), now).Ok?
    requires Lower(spelling) == Lower(data.subdomain)
    ensures var db' := SignupRestaurant(db, data, UserCreated(uid), now).value.0;
      Resolves(db', spelling, uid) && forall id :: Resolves(db', spelling, id) ==> id == uid
  {
  }

  /** The service refuses every subdomain the sign-up form refuses by
      name, but not the other way round: it also refuses `mail` and
      `support`, and it accepts a two-letter subdomain the form rejects. */
  lemma FormAndServiceChecks(db: Db, s: string)
    requires |s| >= 3 && !Signup.CheckSubdomainAvailability(s)
    ensures !CheckSubdomainAvailability(db, s)
    ensures Signup.CheckSubdomainAvailability("mail") && !CheckSubdomainAvailability(db, "mail")
    ensures Signup.CheckSubdomainAvailability("support") && !CheckSubdomainAvailability(db, "support")
    ensures CheckSubdomainAvailability(Db(map[], map[]), "ab") && !Signup.CheckSubdomainAvailability("ab")
  {
    assert s in Signup.FormReserved;
    assert Lower(s) == s;
    assert Lower("mail") == "mail";
    assert Lower("support") == "support";
    assert Lower("ab") == "ab";
  }
}

=== FILE: signup.dfy ===
/** The restaurant sign-up form of `src/pages/Signup.tsx`: the subdomain
    derived from the restaurant name while the subdomain field is empty,
    the form's own availability hint, and the validation run on submit. */
module Signup {
  import opened Common

  datatype Field = RestaurantName | OwnerName | Email | Phone | Subdomain | Password | ConfirmPassword

  datatype SignupForm = SignupForm(
    restaurantName: string,
    ownerName: string,
    email: string,
    phone: string,
    subdomain: string,
    password: string,
    confirmPassword: string)

  const EmptyForm := SignupForm("", "", "", "", "", "", "")

  /** The error messages shown next to each field. */
  type Errors = map<Field, string>

  // ---------------------------------------------------------------------
  // Subdomains
  // ---------------------------------------------------------------------

  /** A character of `[a-z0-9]`. */
  predicate IsSlugChar(c: char)
  {
    'a' <= c <= 'z' || '0' <= c <= '9'
  }

  predicate AllSlugChars(s: string)
  {
    forall i :: 0 <= i < |s| ==> IsSlugChar(s[i])
  }

  /** The longest subdomain the form derives from a name. */
  const AutoSlugLength := 20

  /** `s.replace(/[^a-z0-9]/g, '')`. */
  function KeepSlugChars(s: string): (r: string)
    ensures AllSlugChars(r) && |r| <= |s|
    ensures AllSlugChars(s) ==> r == s
  {
    if |s| == 0 then ""
    else (if IsSlugChar(s[0]) then [s[0]] else "") + KeepSlugChars(s[1..])
  }

  /** Filtering a concatenation filters each part: the kept characters stay
      in their order. */
  lemma {:induction false} KeepSlugCharsAppend(a: string, b: string)
    ensures KeepSlugChars(a + b) == KeepSlugChars(a) + KeepSlugChars(b)
    decreases |a|
  {
    if |a| == 0 {
      assert a + b == b;
    } else {
      assert (a + b)[0] == a[0] && (a + b)[1..] == a[1..] + b;
      KeepSlugCharsAppend(a[1..], b);
    }
  }

  /** One character is kept exactly when it is in `[a-z0-9]`. */
  lemma KeepSlugCharsOne(c: char)
    ensures KeepSlugChars([c]) == if IsSlugChar(c) then [c] else ""
  {
    assert [c][1..] == "";
  }

  /** The kept characters are exactly the `[a-z0-9]` characters of the input. */
  lemma {:induction false} KeepSlugCharsMembers(s: string)
    ensures forall c :: c in KeepSlugChars(s) <==> c in s && IsSlugChar(c)
    decreases |s|
  {
    if |s| > 0 {
      KeepSlugCharsMembers(s[1..]);
      assert s == [s[0]] + s[1..];
    }
  }

  /** The subdomain derived from a restaurant name: lower-cased, stripped of
      everything outside `[a-z0-9]`, cut to 20 characters. */
  function AutoSlug(name: string): (r: string)
    ensures AllSlugChars(r) && |r| <= AutoSlugLength
    ensures r <= KeepSlugChars(Lower(name))
    ensures |r| == if |KeepSlugChars(Lower(name))| < AutoSlugLength then |KeepSlugChars(Lower(name))| else AutoSlugLength
  {
    var kept := KeepSlugChars(Lower(name));
    if |kept| <= AutoSlugLength then kept else kept[..AutoSlugLength]
  }

  /** The derived subdomain holds only `[a-z0-9]` characters of the
      lower-cased name; when the name has at most 20 of them, it holds all
      of them. */
  lemma AutoSlugMembers(name: string)
    ensures forall c :: c in AutoSlug(name) ==> c in Lower(name) && IsSlugChar(c)
    ensures |KeepSlugChars(Lower(name))| <= AutoSlugLength ==>
      forall c :: c in Lower(name) && IsSlugChar(c) ==> c in AutoSlug(name)
  {
    var kept := KeepSlugChars(Lower(name));
    KeepSlugCharsMembers(Lower(name));
    forall c | c in AutoSlug(name) ensures c in kept {
      var k :| 0 <= k < |AutoSlug(name)| && AutoSlug(name)[k] == c;
      assert kept[k] == c;
    }
  }

  /** Upper-case letters are lowered and punctuation dropped. */
  lemma AutoSlugExample()
    ensures AutoSlug("Al's") == "als"
  {
    assert Lower("Al's") == "al's" by {
      assert LowerChar('A') == 'a' && LowerChar('l') == 'l' && LowerChar('\'') == '\'' && LowerChar('s') == 's';
    }
    assert "al's" == "al" + ("'" + "s");
    KeepSlugCharsAppend("al", "'" + "s");
    KeepSlugCharsAppend("'", "s");
    KeepSlugCharsOne('\'');
    assert AllSlugChars("al") && AllSlugChars("s");
    assert KeepSlugChars("al's") == "al" + "s";
  }

  lemma LowerOfSlug(s: string)
    requires AllSlugChars(s)
    ensures Lower(s) == s
  {
  }

  /** A name that already is a subdomain of at most 20 characters derives
      itself; so deriving twice gives what deriving once gives. */
  lemma AutoSlugIdempotent(name: string)
    ensures AutoSlug(AutoSlug(name)) == AutoSlug(name)
  {
    var s := AutoSlug(name);
    LowerOfSlug(s);
  }

  /** `handleChange`: writes the field, clears that field's shown error,
      and, for a change of the restaurant name while the subdomain is still
      empty, derives the subdomain from the new name. */
  function HandleChange(form: SignupForm, errors: Errors, field: Field, value: string): (r: (SignupForm, Errors))
    ensures field == RestaurantName && form.subdomain == "" ==> r.0.subdomain == AutoSlug(value)
    ensures field != Subdomain && !(field == RestaurantName && form.subdomain == "") ==> r.0.subdomain == form.subdomain
    ensures field == Subdomain ==> r.0.subdomain == value
    ensures FieldValue(r.0, field) == value
    ensures forall f :: f != field && f != Subdomain ==> FieldValue(r.0, f) == FieldValue(form, f)
    ensures (field in r.1 <==> field in errors) && (field in errors ==> r.1[field] == "")
    ensures forall f :: f != field ==> (f in r.1 <==> f in errors) && (f in errors ==> r.1[f] == errors[f])
  {
    var written := SetField(form, field, value);
    var form' := if field == RestaurantName && form.subdomain == "" then written.(subdomain := AutoSlug(value)) else written;
    var errors' := if field in errors && errors[field] != "" then errors[field := ""] else errors;
    (form', errors')
  }

  function FieldValue(form: SignupForm, field: Field): string
  {
    match field
    case RestaurantName => form.restaurantName
    case OwnerName => form.ownerName
    case Email => form.email
    case Phone => form.phone
    case Subdomain => form.subdomain
    case Password => form.password
    case ConfirmPassword => form.confirmPassword
  }

  function SetField(form: SignupForm, field: Field, value: string): SignupForm
  {
    match field
    case RestaurantName => form.(restaurantName := value)
    case OwnerName => form.(ownerName := value)
    case Email => form.(email := value)
    case Phone => form.(phone := value)
    case Subdomain => form.(subdomain := value)
    case Password => form.(password := value)
    case ConfirmPassword => form.(confirmPassword := value)
  }

  /** The subdomains the form itself refuses (case-sensitively). */
  const FormReserved: seq<string> := ["admin", "dashboard", "www", "api", "app"]

  /** The form's `checkSubdomainAvailability` hint, run on blur: no store
      lookup, only the reserved words and the minimum length. */
  function CheckSubdomainAvailability(subdomain: string): (r: bool)
    ensures r ==> |subdomain| >= 3
    ensures |subdomain| >= 3 && subdomain !in FormReserved ==> r
    ensures r ==> forall w :: w in FormReserved ==> subdomain != w
  {
    subdomain !in FormReserved && |subdomain| >= 3
  }

  // ---------------------------------------------------------------------
  // validateForm
  // ---------------------------------------------------------------------

  /** `/\S+@\S+\.\S+/` matches with its `@` at `at` and its `.` at `dot`. */
  predicate EmailMatchAt(s: string, at: int, dot: int)
  {
    && 1 <= at && at + 1 < dot && dot + 1 < |s|
    && s[at] == '@' && s[dot] == '.'
    && !IsSpace(s[at - 1]) && !IsSpace(s[dot + 1])
    && forall k :: at < k < dot ==> !IsSpace(s[k])
  }

  /** `/\S+@\S+\.\S+/.test(s)`: the pattern is not anchored, so it is
      enough that some part of `s` has that shape. */
  predicate EmailLooksValid(s: string)
  {
    exists at, dot | 0 <= at < |s| && 0 <= dot < |s| :: EmailMatchAt(s, at, dot)
  }

  /** A subdomain the form accepts: at least three characters of `[a-z0-9]`. */
  predicate IsValidSubdomain(s: string)
  {
    |s| >= 3 && AllSlugChars(s)
  }

  /** The message for a field that must not be blank. */
  function RequiredError(value: string, message: string): (r: Option<string>)
    ensures r.Some? <==> Blank(value)
    ensures r.Some? ==> r.value == message
  {
    TrimEmptyIffBlank(value);
    if Trim(value) == "" then Some(message) else None
  }

  /** The email field: required first, then the pattern. */
  function EmailError(email: string): (r: Option<string>)
    ensures Blank(email) ==> r == Some("Email is required")
    ensures !Blank(email) && !EmailLooksValid(email) ==> r == Some("Email is invalid")
    ensures r.None? <==> EmailLooksValid(email)
  {
    TrimEmptyIffBlank(email);
    if Trim(email) == "" then Some("Email is required")
    else if !EmailLooksValid(email) then Some("Email is invalid")
    else None
  }

  /** The subdomain field: the first failing check reports. */
  function SubdomainError(subdomain: string): (r: Option<string>)
    ensures Blank(subdomain) ==> r == Some("Subdomain is required")
    ensures !Blank(subdomain) && |subdomain| < 3 ==> r == Some("Subdomain must be at least 3 characters")
    ensures !Blank(subdomain) && |subdomain| >= 3 && !AllSlugChars(subdomain) ==>
              r == Some("Subdomain can only contain lowercase letters and numbers")
    ensures r.None? <==> IsValidSubdomain(subdomain)
  {
    TrimEmptyIffBlank(subdomain);
    if Trim(subdomain) == "" then Some("Subdomain is required")
    else if |subdomain| < 3 then Some("Subdomain must be at least 3 characters")
    else if !AllSlugChars(subdomain) then Some("Subdomain can only contain lowercase letters and numbers")
    else None
  }

  /** The password field: required (not trimmed), then at least 8 characters. */
  function PasswordError(password: string): (r: Option<string>)
    ensures password == "" ==> r == Some("Password is required")
    ensures password != "" && |password| < 8 ==> r == Some("Password must be at least 8 characters")
    ensures r.None? <==> |password| >= 8
  {
    if password == "" then Some("Password is required")
    else if |password| < 8 then Some("Password must be at least 8 characters")
    else None
  }

  /** The error `validateForm` records for one field, if any. */
  function FieldError(form: SignupForm, field: Field): Option<string>
  {
    match field
    case RestaurantName => RequiredError(form.restaurantName, "Restaurant name is required")
    case OwnerName => RequiredError(form.ownerName, "Owner name is required")
    case Email => EmailError(form.email)
    case Phone => RequiredError(form.phone, "Phone number is required")
    case Subdomain => SubdomainError(form.subdomain)
    case Password => PasswordError(form.password)
    case ConfirmPassword =>
      if form.password != form.confirmPassword then Some("Passwords do not match") else None
  }

  const AllFields: set<Field> := {RestaurantName, OwnerName, Email, Phone, Subdomain, Password, ConfirmPassword}

  /** The whole form is acceptable. */
  predicate FormOk(form: SignupForm)
  {
    && !Blank(form.restaurantName) && !Blank(form.ownerName) && !Blank(form.phone)
    && EmailLooksValid(form.email)
    && IsValidSubdomain(form.subdomain)
    && |form.password| >= 8 && form.password == form.confirmPassword
  }

  /** `validateForm`: every field is checked independently; the form is
      valid exactly when no field reports an error. */
  function ValidateForm(form: SignupForm): (r: Errors)
    ensures forall f :: f in r <==> FieldError(form, f).Some?
    ensures ConfirmPassword in r <==> form.password != form.confirmPassword
    ensures |r| == 0 <==> FormOk(form)
  {
    var r := map f | f in AllFields && FieldError(form, f).Some? :: FieldError(form, f).value;
    AllFieldsComplete();
    assert |r| == 0 <==> r.Keys == {};
    assert !FormOk(form) ==> exists f :: FieldError(form, f).Some? by {
      if !FormOk(form) {
        if Blank(form.restaurantName) { assert FieldError(form, RestaurantName).Some?; }
        else if Blank(form.ownerName) { assert FieldError(form, OwnerName).Some?; }
        else if Blank(form.phone) { assert FieldError(form, Phone).Some?; }
        else if !EmailLooksValid(form.email) { assert FieldError(form, Email).Some?; }
        else if !IsValidSubdomain(form.subdomain) { assert FieldError(form, Subdomain).Some?; }
        else if |form.password| < 8 { assert FieldError(form, Password).Some?; }
        else { assert FieldError(form, ConfirmPassword).Some?; }
      }
    }
    r
  }

  lemma AllFieldsComplete()
    ensures forall f: Field :: f in AllFields
  {
    forall f: Field ensures f in AllFields {
      match f
      case RestaurantName =>
      case OwnerName =>
      case Email =>
      case Phone =>
      case Subdomain =>
      case Password =>
      case ConfirmPassword =>
    }
  }

  datatype SubmitOutcome = Proceed | ShowErrors(errors: Errors)

  /** `handleSubmit`: nothing happens beyond showing the errors unless the
      form is valid. */
  function HandleSubmit(form: SignupForm): (r: SubmitOutcome)
    ensures r.Proceed? <==> FormOk(form)
    ensures r.ShowErrors? ==> |r.errors| > 0
  {
    var errors := ValidateForm(form);
    if |errors| == 0 then Proceed else ShowErrors(errors)
  }

  /** A subdomain derived from a name of at least three letters or digits
      passes the form's subdomain check. */
  lemma AutoSlugPassesValidation(name: string)
    requires |KeepSlugChars(Lower(name))| >= 3
    ensures SubdomainError(AutoSlug(name)).None?
  {
  }

  /** The pattern accepts an ordinary address and refuses one without a dot
      after the `@`, or with a space right before the `@`. */
  lemma EmailPatternExamples()
    ensures EmailLooksValid("a@b.c")
    ensures !EmailLooksValid("a@b")
    ensures !EmailLooksValid("a @b.c")
  {
    assert EmailMatchAt("a@b.c", 1, 3);
  }
}
